=== FILE: README.md ===
# Weav AI client scripts — a Dafny model of their pure logic

The repository is a set of thin Python clients for the Weav AI platform:
an agent service client (`agents/service.py`), a prompt-management script
(`examples/update_prompt/manage_prompts.py`) and a document uploader
(`uploader/weav_ai_uploader.py`). Almost everything they do is an HTTP call.
This project models the deterministic logic left once the calls are
removed. It proves what that logic guarantees:

- **Server-sent events** (`sse.dfy`). `parse_sse_event` does four things:
  - folds the lines of one string into a field dictionary, keyed by the
    `data:`, `id:`, `event:` and `retry:` prefixes;
  - slices a fixed-width literal off each tagged line and strips what is left;
  - parses `retry` with `int()`;
  - builds an event when validation accepts the fields, and `None` otherwise.

  The loop in `get_agent_response` applies the parser to every non-empty line
  of the streamed body.
- **Python string library pieces** (`text.dfy`): `str.strip()`,
  `str.splitlines()` and `bytes.splitlines()`, slicing `s[n:]`, substring
  `in`, and `int()` on decimal text.
- **Python dictionaries** (`dicts.dfy`): insertion-ordered dicts, with
  assignment, `pop(k, None)` and the well-formedness every Python dict has.
- **Agent records** (`agent_records.dfy`): the `_id` → `id` rename. The list
  rename in `get_all_agents` uses a dict comprehension. The pop-and-set in
  `get_agent` acts on the first element only.
- **Status codes** (`status.dfy`): the ordered `if`/`elif` chains that turn
  an HTTP status into a result or an `AgentServiceException`, for all seven
  calls of `AgentService` and `AgentOperations`.
- **Prompt records** (`prompts.dfy`):
  - the list projection;
  - the detail URL with its optional `version_tag` query;
  - the deactivate and new-version write-back transforms;
  - the command-line requirement checks of `main`.
- **Uploader** (`uploader.dfy`): the extension test `file.split('.')[-1] in
  allowed_file_types`, and the per-file loop that skips, attempts and carries
  on.
- `wrappers.dfy` holds `Option`, `Result` and `MapResults`. `MapResults` is
  the "append `f(x)` for each `x`, and let the first exception escape" loop
  that appears twice above.

Operations are pure functions over immutable datatypes. Python exceptions are
`Err` values. The HTTP response, the event model's validation and the upload
attempt are parameters.

Two points where the code departs from what one might expect:

- In the `text/event-stream` format, an event ends at a blank line and may
  span several field lines. The code (`agents/service.py:262-266`) cuts the
  body into lines with `iter_lines()` and parses every non-empty line on its
  own, so a multi-line event becomes several entries. The model does what the
  code does (`Sse.Assemble`, `Sse.AgentResponses`, `Sse.OneLineOneField`).
- Whether a line yields an event or `None` is decided by the `GetAgentResponse`
  validation, with `ValidationError` suppressed (`agents/service.py:258-259`).
  That model's definition is not part of this model. It is the parameter
  `accepts` of `Sse.ParseEvent`.

## Model

| member | source | states |
|---|---|---|
| `Sse.TagOf` | agents/service.py:248-256 | A line sets exactly the field whose prefix it starts with. No two prefixes can match the same line, so the data/id/event/retry test order never changes the outcome. |
| `Sse.ApplyLine` | agents/service.py:248-256 | One loop iteration. A line sets at most the field its prefix names, to the stripped remainder after slicing off `len("data: ")` etc. Untagged lines change nothing. Every other field is untouched. Only a `retry:` line whose remainder `int()` rejects fails. |
| `Sse.ScanFailure` | agents/service.py:255-259 | The parse raises exactly when some `retry:` line is not an integer, even one a later line would overwrite: `int()` runs outside the `suppress(ValidationError)` block. |
| `Sse.ScanFirstError` | agents/service.py:248-256 | When the parse fails, the error is the one for the first bad `retry:` line. |
| `Sse.ScanKeys` | agents/service.py:246-256 | A field is present in `event_data` exactly when some line carries its prefix. |
| `Sse.ScanLastWins` | agents/service.py:248-256 | When several lines carry the same prefix, the last one's value is stored (dictionary assignment overwrites). |
| `Sse.ToEvent` | agents/service.py:258-259 | `GetAgentResponse(**event_data)`: each event field is set exactly when its key is present and holds the stored value: the text for `data`, `id` and `event`, the integer for `retry`. |
| `Sse.ParseEvent` | agents/service.py:244-259 | `parse_sse_event`: fails iff some line is a bad `retry:`. Otherwise it gives an event iff validation accepts the fields, and `None` (the suppressed `ValidationError`) otherwise. The event is the one built from the scanned fields. Each of its four fields is set iff some line carries that prefix. |
| `Sse.ParseEventValues` | agents/service.py:248-259 | Each field of a returned event holds what the last line with its prefix stored. For `data`, `id` and `event` that is the stripped text after the sliced literal. For `retry` it is the integer that text spells. |
| `Sse.DataLineEvent` | agents/service.py:244-259 | A single line `data: <payload>` (payload without edge whitespace or boundaries) gives the event whose `data` is the payload, with no other field set. For example `data: hello` gives the payload `hello`. |
| `Sse.NonEmptyLines` | agents/service.py:262-263 | `if line:` keeps every non-empty line and only those. |
| `Sse.NonEmptyLinesAppend` | agents/service.py:262-263 | The filter keeps lines in their order: it distributes over concatenation. |
| `Sse.AgentResponses` | agents/service.py:244-267 | What `get_agent_response` returns after the status checks. It fails iff some non-empty body line holds a bad `retry:` value, and then with the first such line's error. Otherwise there is one entry per non-empty body line, in order. Each entry is an event built from that line's fields exactly when validation accepts them, and `None` otherwise. |
| `Sse.Assemble` | agents/service.py:261-267 | The loop produces one entry per non-empty body line, in order, with `None` entries kept. The first line that raises aborts the call with that line's error. |
| `Sse.OneLineOneField` | agents/service.py:262-265 | A non-empty line containing none of `str.splitlines()`'s boundaries is parsed as one line and sets at most the field its prefix names. Body lines are already free of `\n` and `\r`. The lemma does not cover a body line holding another boundary (`\v`, `\f`, `\x1c`-`\x1e`, `\x85`, U+2028, U+2029), because `splitlines()` cuts such a line again. |
| `Sse.SliceDropsCharAfterColon` | agents/service.py:249-256 | The slice removes one character more than the prefix tested, so the character after the colon is lost whether or not it is a space. |
| `Sse.BarePrefix` | agents/service.py:249-256 | A line that is only `data:`, `id:` or `event:` stores `""`. A bare `retry:` makes `int('')` fail the whole parse. |
| `Sse.RetryReadsBackIntegers` | agents/service.py:255-256 | `retry: <n>` stores the integer `n` for every integer `n`. The model has no digit limit. |
| `Text.Strip` | agents/service.py:250 | `strip()` leaves no whitespace at either end and never lengthens the text. |
| `Text.StripPadded` | agents/service.py:250 | `strip()` returns exactly the text between any whitespace-only padding. |
| `Text.SplitLines` | agents/service.py:245 | `splitlines()` yields lines with no boundary characters. Their concatenation is the input minus its boundaries, and there are no lines iff the input is empty. Where the lines break is fixed by the next three lemmas, which together determine the result on every input. |
| `Text.SplitLinesOfOneLine` | agents/service.py:245 | A non-empty text without boundaries is one line. |
| `Text.SplitLinesCons` | agents/service.py:245 | A line ended by any single boundary (`\n`, `\r` not followed by `\n`, and for `str` also `\v`, `\f`, `\x1c`-`\x1e`, `\x85`, U+2028, U+2029) comes off the front as one element. |
| `Text.SplitLinesCrLf` | agents/service.py:245 | A line ended by `\r\n` comes off the front as one element: the pair is one boundary. |
| `Text.ParseInt` | agents/service.py:256 | `int()` on the stripped `retry:` text. A text is accepted iff it is a digit group (digits with single underscores between them), optionally after one `+` or `-`. The empty text is rejected. Accepted text ends in a digit and holds only digits and underscores after an optional sign. A negative result comes only from a leading `-`, and a leading `-` never gives a positive result. |
| `Text.ParseIntRoundTrip` | agents/service.py:256 | `int(str(n)) == n` for every integer. The model has no digit limit. |
| `Text.ParseIntSigned` | agents/service.py:256 | An unsigned digit group reads as the number its digits denote. With a `+` sign it reads the same, and with a `-` sign as the negation. |
| `Text.ParseIntLeadingZero` | agents/service.py:256 | A leading zero does not change the value, so `007` reads as 7. |
| `Text.ParseIntUnderscore` | agents/service.py:256 | An underscore between two digit groups does not change the value, so `1_000` reads as 1000. |
| `Text.ContainsOccurs` | examples/update_prompt/manage_prompts.py:221 | String `in` is a substring test: it holds iff the needle occurs at some offset. |
| `Wrappers.MapResults` | examples/update_prompt/manage_prompts.py:63-71 | A loop that appends `f(x)` per element: it succeeds iff every element does, with one result per element in order. Otherwise it fails with the first failing element's error. |
| `Dicts.PopAllLookup` | examples/update_prompt/manage_prompts.py:136-137 | After popping a list of keys with a default, those keys are absent and every other key reads as before. |
| `Dicts.PopAllAbsent` | examples/update_prompt/manage_prompts.py:191-192 | Popping keys that are absent, with a default, is a no-op. |
| `Dicts.SetValid` | examples/update_prompt/manage_prompts.py:186-188 | Assignment keeps a dict well formed: keys distinct and listed exactly once. |
| `Dicts.PopAllValid` | examples/update_prompt/manage_prompts.py:191-192 | Popping keeps a dict well formed. |
| `AgentRecords.RenameStorageId` | agents/service.py:187 | The comprehension leaves no `_id` key, never adds entries, and keeps the dict well formed. |
| `AgentRecords.RenameKeepsOtherKeys` | agents/service.py:187 | Every key other than `_id`/`id` keeps its value. |
| `AgentRecords.RenameIdValue` | agents/service.py:187 | `id` is present iff `_id` or `id` was. It holds the value of whichever came later in iteration order. |
| `AgentRecords.RenameInPlace` | agents/service.py:187 | Unless both `_id` and `id` are present, the key order is kept with `_id` renamed in place. |
| `AgentRecords.RenameWithoutStorageId` | agents/service.py:187 | A record without `_id` comes back unchanged. |
| `AgentRecords.RenameAll` | agents/service.py:186-189 | The list rename keeps length and order and renames every element. No element keeps `_id`. |
| `AgentRecords.RenameAllPassesThrough` | agents/service.py:186-188 | List elements without `_id` pass through unchanged. |
| `AgentRecords.TakeFirstAgent` | agents/service.py:316-317 | An empty list fails (`IndexError`), and so does a first element without `_id` (`KeyError`). Otherwise `id` gets `_id`'s value, `_id` is removed, and all other keys are unchanged. |
| `AgentRecords.SingleAgreesWithListRename` | agents/service.py:316-317 | For a record with `_id` and no `id`, the single-agent path and the list comprehension agree on every key. |
| `AgentRecords.SingleDisagreesWithListRename` | agents/service.py:316-317 | With `_id` before `id`, the comprehension keeps `id`'s value but the pop-and-set keeps `_id`'s: the two renames differ. |
| `Status.RunChainFirstMatch` | agents/service.py:298-315 | An `if`/`elif` chain raises for the earliest branch whose code matches. With no match, anything but 200 is a generic failure and 200 succeeds. |
| `Status.Classify` | agents/service.py:166-183 | For every call, 200 is the only success and 401 is always an authentication failure. 404 is "not found" only in `get_all_agents`/`get_agent`, and 422 is "validation" only in the two `get_agent_response` methods and `delete_chat_history`. Every other code is a generic failure carrying the code. Only `get_all_agents`' 404 has no response body. The same chain appears at lines 27-38, 50-67, 100-111, 121-138, 225-242 and 298-315. |
| `Status.ClassifyAsWritten` | agents/service.py:225-242 | As written, the only input that raises `NameError` is status 422 in `AgentOperations.get_agent_response`. Everywhere else it agrees with `Classify`. |
| `Status.ValidationNameError` | agents/service.py:231-236 | The as-written 422 branch raises `NameError` for `VALIDATION_FAILED_MESSAGE`. The corrected one raises the 422 validation failure. |
| `Prompts.ProjectPrompt` | examples/update_prompt/manage_prompts.py:66-71 | Each listing has exactly the keys `prompt_type`, `prompt_name`, `version_tag` and `is_active`, in that order, with `prompt_name` taken from `name`. A non-dict element fails, and a missing key raises `KeyError` for the first one read. |
| `Prompts.ProjectPrompts` | examples/update_prompt/manage_prompts.py:63-73 | The listing preserves length and order, or fails with the first unprojectable prompt's error. |
| `Prompts.DetailsUrl` | examples/update_prompt/manage_prompts.py:89-91 | The URL always starts with the prompt path. It is longer than the path iff the tag is truthy (given and non-empty). |
| `Prompts.DetailsUrlRoundTrip` | examples/update_prompt/manage_prompts.py:89-91 | The tag can be read back from the URL iff it was truthy, so no tag and an empty tag request the same URL. |
| `Prompts.Deactivate` | examples/update_prompt/manage_prompts.py:133-137 | Key by key: `is_active` is `False` and the four audit fields are gone. Every other key, `id` included, is as fetched. |
| `Prompts.DeactivatedIsInactive` | examples/update_prompt/manage_prompts.py:133 | The deactivated record holds `is_active = False`. |
| `Prompts.DeactivatedHasNoAudit` | examples/update_prompt/manage_prompts.py:136-137 | The deactivated record has none of `created_by`, `updated_by`, `created_at`, `updated_at`. |
| `Prompts.DeactivateValid` | examples/update_prompt/manage_prompts.py:133-137 | Deactivating keeps the record a well-formed dict. |
| `Prompts.DeactivateIdempotent` | examples/update_prompt/manage_prompts.py:133-137 | Deactivating twice is the same as deactivating once. |
| `Prompts.DeactivateDetails` | examples/update_prompt/manage_prompts.py:121-137 | A falsy fetched body exits as "not found". A truthy non-dict body fails as not an object: the assignment at line 133 raises `TypeError`. A dict is deactivated. |
| `Prompts.NewVersion` | examples/update_prompt/manage_prompts.py:186-192 | Key by key: the new `version_tag` (`None` when not given), the new `prompt_definition` and `is_active = True` are set. `id` and the audit fields are gone, and every other key is as fetched. |
| `Prompts.NewVersionHasNewFields` | examples/update_prompt/manage_prompts.py:186-188 | The new record holds the three assigned values. |
| `Prompts.NewVersionDropsIdentity` | examples/update_prompt/manage_prompts.py:191-192 | The new record never contains `id`, `created_by`, `updated_by`, `created_at` or `updated_at`. |
| `Prompts.NewVersionValid` | examples/update_prompt/manage_prompts.py:186-192 | The transform keeps the record a well-formed dict. |
| `Prompts.NewVersionIdempotent` | examples/update_prompt/manage_prompts.py:186-192 | Applying the transform twice with the same arguments equals applying it once. |
| `Prompts.NewVersionDetails` | examples/update_prompt/manage_prompts.py:168-192 | A falsy fetched body exits as "not found". A truthy non-dict body fails as not an object: `deactivate_prompt`, called at line 174, fetches the same body again, and its assignment at line 133 raises `TypeError` before line 186 is reached. A dict is transformed. |
| `Prompts.CheckArgs` | examples/update_prompt/manage_prompts.py:211-224 | Checks run in order: no action is rejected, and `get`/`deactivate` without `--prompt_id` is rejected. `update` without `--prompt_id` or `--prompt_text_file` is rejected. Everything else proceeds. |
| `Prompts.UpdateTestIsEquality` | examples/update_prompt/manage_prompts.py:221 | `action in ('update')` is a substring test. Over the four argparse choices it holds only for `update`. |
| `Prompts.VersionTagNeverRequired` | examples/update_prompt/manage_prompts.py:207-224 | `--new_version_tag` never affects the verdict. |
| `Uploader.LastSegment` | uploader/weav_ai_uploader.py:42 | The extension contains no `.` and is never longer than the path. |
| `Uploader.LastSegmentIsTail` | uploader/weav_ai_uploader.py:42 | The extension ends the path and is either the whole path or follows a `.`. |
| `Uploader.SplitJoin` | uploader/weav_ai_uploader.py:42 | `'.'.join(s.split('.')) == s`: the reference split loses nothing. |
| `Uploader.SplitLastIsLastSegment` | uploader/weav_ai_uploader.py:42 | `file.split('.')[-1]` is the text after the last `.` of the whole path. |
| `Uploader.LastSegmentAfterDot` | uploader/weav_ai_uploader.py:42 | The segment after the last dot decides, even when that dot is in a directory name. |
| `Uploader.LastSegmentNoDot` | uploader/weav_ai_uploader.py:42 | A path without a dot is its own extension. |
| `Uploader.AllowedFilesAppend` | uploader/weav_ai_uploader.py:40-44 | The attempted paths keep list order: the filter distributes over concatenation, so the paths of an earlier part of the list come before those of a later part. |
| `Uploader.AllowedFilesMembers` | uploader/weav_ai_uploader.py:40-44 | A path is attempted iff it is listed and its extension is in the allowed list (exact, case-sensitive equality). |
| `Uploader.UploadFiles` | uploader/weav_ai_uploader.py:40-61 | Each path gets one report, in order. A path is skipped iff its extension is not allowed, and every other path is attempted. The attempted paths are `AllowedFiles` of the list, which `AllowedFilesMembers` and `AllowedFilesAppend` fix as the order-preserving filter, and a failed attempt does not stop later paths. |

## Left out

- HTTP itself is not modelled: `requests.*`, headers and URLs other than the
  prompt-detail URL. The status code and the decoded body are inputs.
- JSON decoding (`response.json()`) is not modelled. The decoded value is an
  input: a general JSON value (`Prompts.Json`, without floating-point
  numbers) for the prompt script, and a list of dictionaries for the agent
  calls. A non-list body in `get_all_agents` and `get_all_prompts` is left
  out.
- `AgentRecords.RenameAll`: its argument is a list of dictionaries. A
  non-dict element, for which `d.items()` at `agents/service.py:187` raises
  `AttributeError`, is not modelled.
- `AgentRecords.TakeFirstAgent`: its argument is a list of dictionaries. A
  dict body, for which `response.json()[0]` at `agents/service.py:316`
  raises `KeyError`, is not modelled. Neither is a non-dict first element,
  for which `.pop` at line 317 raises `AttributeError`.
- The pydantic validation after the rename is not modelled, and either call
  can raise: `AgentConfigurations(configurations=...)` at
  `agents/service.py:191` and `AgentConfiguration.model_validate` at line 318.
  The models in `agents/models.py` are not part of this model.
- `iter_lines()` is taken as `bytes.splitlines()` of the whole body. Its
  chunking and the UTF-8 decode of each line are left out: the body is
  already a string.
- The pydantic model `GetAgentResponse` is not part of this model. Its
  validation is the parameter `accepts` of `Sse.ParseEvent`, with nothing
  assumed about which fields it requires.
- `Text.ParseInt`: accepts ASCII digits only. Python's `int()` also accepts
  other Unicode decimal digits and surrounding whitespace (already stripped
  at that call). It also has no digit limit. CPython 3.11 and later, and the
  2022 security releases of 3.7–3.10, raise `ValueError` on a decimal string
  of more than 4300 digits. A `retry:` line that long aborts the call at
  `agents/service.py:256`, where the model accepts it. Whether the limit
  applies depends on the interpreter version.
- `Text.ParseIntRoundTrip`: holds for every integer only without that digit
  limit; on the limited interpreters it holds for integers of at most 4300
  digits.
- `Sse.RetryReadsBackIntegers`: the same limit applies. A `retry:` value of
  more than 4300 digits raises on the limited interpreters.
- `Sse.ToEvent`: the event model is taken to have four optional fields
  (`data`, `id`, `event`, `retry`). Each passed value is kept as given, and
  absent fields are `None`. Pydantic could coerce a value or fill in a default
  under a different definition. `Sse.ParseEventValues` and
  `Sse.DataLineEvent` rest on the same assumption.
- Exception messages and `response_data` bodies are not modelled, beyond
  whether a body is sent (`Status.Outcome`). `response.json()` raising on an
  error body is not modelled.
- `Prompts.Deactivate`: its contract states the record key by key and does
  not state the order of the keys in the JSON sent.
- `Prompts.NewVersion`: the same; key order is not stated.
- `update_system_prompt` makes two network steps that are not modelled:
  calling `deactivate_prompt` (which fetches the prompt again) and the
  `if not response` check on its result.
- `Prompts.CheckArgs`: argparse's own rejection of an `--action` outside the
  four choices is taken as done: the `requires` states it.
- `Uploader.UploadFiles`: opening and posting a file is the parameter
  `attempt`. `os.path.basename`, the content type and the printed messages
  are not modelled.
- Configuration loading (`Config`), `print`, `sys.exit` and `argparse`
  parsing are I/O.
- `get_source_files`, `init_db`, `examples/move_files/move_files.py` and the
  CLI entry points (`agents/get_agent.py`, `agents/get_agent_response.py`,
  `agents/get_agent_types.py`) are left out: they only wire I/O.
- The `accepts` and `attempt` parameters are total functions, so validation
  and uploads are treated as deterministic.

## Findings

| source | as written | input that shows it | evidently intended | confidence | as-written member | corrected member |
|---|---|---|---|---|---|---|
| agents/service.py:234 | The 422 branch of `AgentOperations.get_agent_response` passes `message=VALIDATION_FAILED_MESSAGE`. That name is never imported: line 2 imports only `AUTHENTICATION_FAILED_MESSAGE`. Evaluating the raise therefore raises `NameError`. | HTTP status 422 from the agent-response endpoint | `AgentServiceException(status_code=422, ...)` with a validation message, as `AgentService.get_agent_response` raises at lines 56-61 | high; not executed | `Status.ClassifyAsWritten` | `Status.Classify` |

=== FILE: agent_records.dfy ===
/** The `_id` to `id` renaming `AgentOperations` applies to agent
    configurations: over a whole list in `get_all_agents`, and by pop-and-set
    on the first element in `get_agent`. */
module AgentRecords {
  import opened Wrappers
  import opened Dicts

  /** The key a comprehension entry is stored under. */
  function RenamedKey(k: string): string {
    if k == "_id" then "id" else k
  }

  /** Either spelling of the identifier key. */
  predicate IsIdKey(k: string) {
    k == "_id" || k == "id"
  }

  /** The comprehension run over the first `n` items of `d`. */
  function RenamePrefix<V>(d: Dict<V>, n: nat): Dict<V>
    requires n <= |d.keys|
    decreases n
  {
    if n == 0 then Empty()
    else
      var k := d.keys[n - 1];
      var prev := RenamePrefix(d, n - 1);
      if k in d.values then Set(prev, RenamedKey(k), d.values[k]) else prev
  }

  /** `{("id" if k == "_id" else k): v for k, v in d.items()}`: the items are
      inserted in order into a fresh dictionary, so when both `_id` and `id`
      are present the later one's value survives. */
  function RenameStorageId<V>(d: Dict<V>): (r: Dict<V>)
    requires Valid(d)
    ensures Valid(r)
    ensures "_id" !in r.values
    ensures |r.keys| <= |d.keys|
  {
    RenamePrefixValid(d, |d.keys|);
    RenamePrefixLength(d, |d.keys|);
    RenamePrefix(d, |d.keys|)
  }

  /** The comprehension builds a well-formed dictionary with no `_id` key. */
  lemma {:induction false} RenamePrefixValid<V>(d: Dict<V>, n: nat)
    requires n <= |d.keys|
    ensures Valid(RenamePrefix(d, n))
    ensures "_id" !in RenamePrefix(d, n).values
    decreases n
  {
    if n > 0 {
      RenamePrefixValid(d, n - 1);
      var k := d.keys[n - 1];
      if k in d.values {
        SetValid(RenamePrefix(d, n - 1), RenamedKey(k), d.values[k]);
      }
    }
  }

  lemma {:induction false} RenamePrefixLength<V>(d: Dict<V>, n: nat)
    requires n <= |d.keys|
    ensures |RenamePrefix(d, n).keys| <= n
    decreases n
  {
    if n > 0 {
      RenamePrefixLength(d, n - 1);
    }
  }

  /** After `n` items, a key other than the identifier spellings is mapped
      exactly when it was among those items, to its original value. */
  lemma {:induction false} RenamePrefixOtherKeys<V>(d: Dict<V>, n: nat, k: string)
    requires n <= |d.keys| && !IsIdKey(k)
    ensures Lookup(RenamePrefix(d, n), k) == if k in d.keys[..n] then Lookup(d, k) else None
    decreases n
  {
    if n > 0 {
      RenamePrefixOtherKeys(d, n - 1, k);
      var prev := RenamePrefix(d, n - 1);
      var key := d.keys[n - 1];
      if key in d.values {
        SetLookup(prev, RenamedKey(key), d.values[key], k);
      }
      assert d.keys[..n] == d.keys[..n - 1] + [key];
      assert RenamedKey(key) == k <==> key == k;
    }
  }

  /** Every key other than the two identifier spellings keeps its value. */
  lemma RenameKeepsOtherKeys<V>(d: Dict<V>, k: string)
    requires Valid(d) && !IsIdKey(k)
    ensures Lookup(RenameStorageId(d), k) == Lookup(d, k)
  {
    RenamePrefixOtherKeys(d, |d.keys|, k);
    assert d.keys[..|d.keys|] == d.keys;
  }

  /** Item `i` is the last of the first `n` items keyed `_id` or `id`. */
  predicate LastIdItem(keys: seq<string>, n: nat, i: int) {
    && 0 <= i < n <= |keys|
    && IsIdKey(keys[i])
    && forall j :: i < j < n ==> !IsIdKey(keys[j])
  }

  /** Every listed key is mapped: the half of `Valid` the rename relies on. */
  predicate KeysMapped<V>(d: Dict<V>) {
    forall i :: 0 <= i < |d.keys| ==> d.keys[i] in d.values
  }

  lemma ValidKeysMapped<V>(d: Dict<V>)
    requires Valid(d)
    ensures KeysMapped(d)
  {
    forall i | 0 <= i < |d.keys|
      ensures d.keys[i] in d.values
    {
      assert d.keys[i] in d.keys;
    }
  }

  lemma {:induction false} RenamePrefixIdPresent<V>(d: Dict<V>, n: nat)
    requires KeysMapped(d) && n <= |d.keys|
    ensures "id" in RenamePrefix(d, n).values <==> exists j :: 0 <= j < n && IsIdKey(d.keys[j])
    decreases n
  {
    if n > 0 {
      RenamePrefixIdPresent(d, n - 1);
      var key := d.keys[n - 1];
      assert key in d.values;
      assert RenamedKey(key) == "id" <==> IsIdKey(key);
    }
  }

  lemma {:induction false} RenamePrefixIdValue<V>(d: Dict<V>, n: nat)
    requires KeysMapped(d) && n <= |d.keys|
    ensures forall i :: LastIdItem(d.keys, n, i) ==>
              Lookup(RenamePrefix(d, n), "id") == Lookup(d, d.keys[i])
    decreases n
  {
    if n > 0 {
      RenamePrefixIdValue(d, n - 1);
      var prev := RenamePrefix(d, n - 1);
      var key := d.keys[n - 1];
      assert key in d.values;
      assert RenamePrefix(d, n) == Set(prev, RenamedKey(key), d.values[key]);
      SetLookup(prev, RenamedKey(key), d.values[key], "id");
      if IsIdKey(key) {
        assert RenamedKey(key) == "id";
        assert Lookup(RenamePrefix(d, n), "id") == Lookup(d, key);
      } else {
        assert RenamedKey(key) != "id";
        assert Lookup(RenamePrefix(d, n), "id") == Lookup(prev, "id");
        forall i | LastIdItem(d.keys, n, i)
          ensures Lookup(RenamePrefix(d, n), "id") == Lookup(d, d.keys[i])
        {
          assert LastIdItem(d.keys, n - 1, i);
        }
      }
    }
  }

  /** `id` ends up holding the value of the last item keyed `_id` or `id`,
      and is absent exactly when neither key is present. */
  lemma RenameIdValue<V>(d: Dict<V>)
    requires Valid(d)
    ensures "id" in RenameStorageId(d).values <==> "_id" in d.values || "id" in d.values
    ensures forall i :: LastIdItem(d.keys, |d.keys|, i) ==>
              Lookup(RenameStorageId(d), "id") == Lookup(d, d.keys[i])
  {
    ValidKeysMapped(d);
    RenamePrefixIdPresent(d, |d.keys|);
    RenamePrefixIdValue(d, |d.keys|);
    if "_id" in d.values {
      assert "_id" in d.keys;
    }
    if "id" in d.values {
      assert "id" in d.keys;
    }
  }

  /** The comprehension applied key by key, keeping positions. */
  function RenamedKeys(keys: seq<string>): (r: seq<string>)
    ensures |r| == |keys|
    ensures forall i :: 0 <= i < |keys| ==> r[i] == RenamedKey(keys[i])
  {
    seq(|keys|, i requires 0 <= i < |keys| => RenamedKey(keys[i]))
  }

  /** No two items are stored under the same renamed key. */
  predicate RenamesDistinct(keys: seq<string>) {
    forall i, j :: 0 <= i < j < |keys| ==> RenamedKey(keys[i]) != RenamedKey(keys[j])
  }

  /** Without both spellings present, distinct keys stay distinct. */
  lemma RenamesDistinctWithoutBoth<V>(d: Dict<V>)
    requires Valid(d) && !("_id" in d.values && "id" in d.values)
    ensures RenamesDistinct(d.keys)
  {
    ValidKeysMapped(d);
  }

  /** Item `m`'s renamed key is not among the renamed keys before it. */
  lemma RenamedKeyFresh(keys: seq<string>, renamed: seq<string>, m: nat)
    requires RenamesDistinct(keys) && m < |keys| && |renamed| == m
    requires forall i :: 0 <= i < m ==> renamed[i] == RenamedKey(keys[i])
    ensures RenamedKey(keys[m]) !in renamed
  {
    forall j | 0 <= j < m
      ensures renamed[j] != RenamedKey(keys[m])
    {
      assert RenamedKey(keys[j]) != RenamedKey(keys[m]);
    }
  }

  lemma {:induction false} RenamePrefixInPlace<V>(d: Dict<V>, n: nat)
    requires KeysMapped(d) && RenamesDistinct(d.keys) && n <= |d.keys|
    ensures |RenamePrefix(d, n).keys| == n
    ensures forall i :: 0 <= i < n ==> RenamePrefix(d, n).keys[i] == RenamedKey(d.keys[i])
    decreases n
  {
    if n > 0 {
      RenamePrefixInPlace(d, n - 1);
      RenamePrefixValid(d, n - 1);
      var prev := RenamePrefix(d, n - 1);
      var key := d.keys[n - 1];
      var k := RenamedKey(key);
      assert key in d.values;
      RenamedKeyFresh(d.keys, prev.keys, n - 1);
      assert RenamePrefix(d, n).keys == prev.keys + [k];
    }
  }

  /** Unless a record carries both `_id` and `id`, the rename changes that
      one key in place: order and length are kept. */
  lemma RenameInPlace<V>(d: Dict<V>)
    requires Valid(d) && !("_id" in d.values && "id" in d.values)
    ensures RenameStorageId(d).keys == RenamedKeys(d.keys)
  {
    ValidKeysMapped(d);
    RenamesDistinctWithoutBoth(d);
    RenamePrefixInPlace(d, |d.keys|);
    assert d.keys[..|d.keys|] == d.keys;
  }

  /** A record without `_id` comes back unchanged. */
  lemma RenameWithoutStorageId<V>(d: Dict<V>)
    requires Valid(d) && "_id" !in d.values
    ensures RenameStorageId(d) == d
  {
    var r := RenameStorageId(d);
    RenameInPlace(d);
    assert "_id" !in d.keys;
    assert r.keys == d.keys;
    forall k | k in d.values || k in r.values
      ensures k in d.values && k in r.values && r.values[k] == d.values[k]
    {
      if k == "id" {
        RenameIdValue(d);
        var i :| 0 <= i < |d.keys| && d.keys[i] == "id";
        assert LastIdItem(d.keys, |d.keys|, i);
      } else {
        RenameKeepsOtherKeys(d, k);
      }
    }
    assert r.values == d.values;
  }

  /** `transformed_data` in `get_all_agents`: the rename applied to every
      element, so the list keeps its length and order and no element is left
      with an `_id` key. */
  function RenameAll<V>(ds: seq<Dict<V>>): (rs: seq<Dict<V>>)
    requires forall i :: 0 <= i < |ds| ==> Valid(ds[i])
    ensures |rs| == |ds|
    ensures forall i :: 0 <= i < |ds| ==> rs[i] == RenameStorageId(ds[i])
    ensures forall i :: 0 <= i < |ds| ==> "_id" !in rs[i].values && Valid(rs[i])
    decreases |ds|
  {
    if ds == [] then [] else [RenameStorageId(ds[0])] + RenameAll(ds[1..])
  }

  /** Elements without an `_id` key come through the list rename unchanged. */
  lemma RenameAllPassesThrough<V>(ds: seq<Dict<V>>)
    requires forall i :: 0 <= i < |ds| ==> Valid(ds[i])
    ensures forall i :: 0 <= i < |ds| && "_id" !in ds[i].values ==> RenameAll(ds)[i] == ds[i]
  {
    forall i | 0 <= i < |ds| && "_id" !in ds[i].values
      ensures RenameAll(ds)[i] == ds[i]
    {
      RenameWithoutStorageId(ds[i]);
    }
  }

  /** How `get_agent` can fail once the status is 200. */
  datatype AgentError =
    | EmptyResponse      // `response.json()[0]` on an empty list: `IndexError`
    | MissingStorageId   // `pop("_id")` without a default: `KeyError`

  /** `response_json = response.json()[0]; response_json["id"] = response_json.pop("_id")`. */
  function TakeFirstAgent<V>(resp: seq<Dict<V>>): (r: Result<Dict<V>, AgentError>)
    ensures r.Ok? <==> |resp| > 0 && "_id" in resp[0].values
    ensures |resp| == 0 ==> r == Err(EmptyResponse)
    ensures |resp| > 0 && "_id" !in resp[0].values ==> r == Err(MissingStorageId)
    ensures r.Ok? ==> "_id" !in r.value.values
    ensures r.Ok? ==> Lookup(r.value, "id") == Lookup(resp[0], "_id")
    ensures r.Ok? ==> forall k :: !IsIdKey(k) ==> Lookup(r.value, k) == Lookup(resp[0], k)
    ensures r.Ok? && Valid(resp[0]) ==> Valid(r.value)
  {
    if |resp| == 0 then Err(EmptyResponse)
    else
      var d := resp[0];
      if "_id" in d.values then
        var v := d.values["_id"];
        assert Valid(d) ==> Valid(Set(Pop(d, "_id"), "id", v)) by {
          if Valid(d) {
            PopValid(d, "_id");
            SetValid(Pop(d, "_id"), "id", v);
          }
        }
        Ok(Set(Pop(d, "_id"), "id", v))
      else Err(MissingStorageId)
  }

  /** For a record that has `_id` but no `id`, both renamings agree on every key. */
  lemma SingleAgreesWithListRename<V>(d: Dict<V>, rest: seq<Dict<V>>, k: string)
    requires Valid(d) && "_id" in d.values && "id" !in d.values
    ensures TakeFirstAgent([d] + rest).Ok?
    ensures Lookup(TakeFirstAgent([d] + rest).value, k) == Lookup(RenameStorageId(d), k)
  {
    var resp := [d] + rest;
    assert resp[0] == d;
    if IsIdKey(k) {
      RenameIdValue(d);
      assert "_id" in d.keys;
      var i :| 0 <= i < |d.keys| && d.keys[i] == "_id";
      assert LastIdItem(d.keys, |d.keys|, i) by {
        forall j | i < j < |d.keys|
          ensures !IsIdKey(d.keys[j])
        {
          assert d.keys[j] in d.values;
        }
      }
    } else {
      RenameKeepsOtherKeys(d, k);
    }
  }

  /** With `_id` listed before `id`, the list rename keeps `id`'s value while
      the single-agent pop-and-set keeps `_id`'s. */
  lemma SingleDisagreesWithListRename<V>(a: V, b: V)
    ensures var d: Dict<V> := Dict(["_id", "id"], map["_id" := a, "id" := b]);
      && Lookup(RenameStorageId(d), "id") == Some(b)
      && Lookup(TakeFirstAgent([d]).value, "id") == Some(a)
  {
    var d: Dict<V> := Dict(["_id", "id"], map["_id" := a, "id" := b]);
    RenameIdValue(d);
    assert LastIdItem(d.keys, 2, 1);
  }
}

=== FILE: dicts.dfy ===
/** Python's insertion-ordered `dict` with string keys: the keys in
    iteration order together with the key/value mapping. Assigning to an
    existing key keeps its position; assigning to a new key appends it;
    `pop(k, None)` removes the key if it is there and does nothing
    otherwise. */
module Dicts {
  import opened Wrappers

  datatype Dict<V> = Dict(keys: seq<string>, values: map<string, V>)

  /** Every Python dictionary lists each key once, and lists exactly the
      keys it maps. */
  predicate Valid<V>(d: Dict<V>) {
    && (forall i, j :: 0 <= i < j < |d.keys| ==> d.keys[i] != d.keys[j])
    && d.values.Keys == (set k | k in d.keys)
  }

  /** `{}`. */
  function Empty<V>(): (r: Dict<V>)
    ensures Valid(r)
    ensures r.values == map[]
  {
    Dict([], map[])
  }

  /** `d.get(k)`. */
  function Lookup<V>(d: Dict<V>, k: string): Option<V> {
    if k in d.values then Some(d.values[k]) else None
  }

  /** `d[k] = v`. */
  function Set<V>(d: Dict<V>, k: string, v: V): (r: Dict<V>)
    ensures r.values == d.values[k := v]
    ensures r.keys == if k in d.values then d.keys else d.keys + [k]
  {
    Dict(if k in d.values then d.keys else d.keys + [k], d.values[k := v])
  }

  /** `ks` without the entries equal to `k`, order kept. */
  function Without(ks: seq<string>, k: string): seq<string> {
    if ks == [] then []
    else if ks[0] == k then Without(ks[1..], k)
    else [ks[0]] + Without(ks[1..], k)
  }

  /** `d.pop(k, None)`, the result discarded. */
  function Pop<V>(d: Dict<V>, k: string): (r: Dict<V>)
    ensures r.values == d.values - {k}
    ensures r.keys == Without(d.keys, k)
  {
    Dict(Without(d.keys, k), d.values - {k})
  }

  /** `for k in ks: d.pop(k, None)`. */
  function PopAll<V>(d: Dict<V>, ks: seq<string>): Dict<V>
    decreases |ks|
  {
    if ks == [] then d
    else PopAll(Pop(d, ks[0]), ks[1..])
  }

  /** Reading a key after `d[k] = v`. */
  lemma SetLookup<V>(d: Dict<V>, k: string, v: V, j: string)
    ensures Lookup(Set(d, k, v), j) == if j == k then Some(v) else Lookup(d, j)
  {
  }

  /** Assigning a key the value it already holds changes nothing. */
  lemma SetExisting<V>(d: Dict<V>, k: string, v: V)
    requires k in d.values && d.values[k] == v
    ensures Set(d, k, v) == d
  {
    assert d.values[k := v] == d.values;
  }

  /** Assigning keeps a dictionary well formed. */
  lemma SetValid<V>(d: Dict<V>, k: string, v: V)
    requires Valid(d)
    ensures Valid(Set(d, k, v))
  {
    var r := Set(d, k, v);
    if k !in d.values {
      assert k !in d.keys;
      assert forall i :: 0 <= i < |d.keys| ==> r.keys[i] == d.keys[i];
    }
  }

  /** Removing `k` from a key list removes exactly that key and keeps the
      others distinct. */
  lemma {:induction false} WithoutMembers(ks: seq<string>, k: string)
    ensures forall x :: x in Without(ks, k) <==> x in ks && x != k
    ensures (forall i, j :: 0 <= i < j < |ks| ==> ks[i] != ks[j]) ==>
              forall i, j :: 0 <= i < j < |Without(ks, k)| ==> Without(ks, k)[i] != Without(ks, k)[j]
    ensures k !in ks ==> Without(ks, k) == ks
    decreases |ks|
  {
    if ks != [] {
      WithoutMembers(ks[1..], k);
      var rest := Without(ks[1..], k);
      if ks[0] != k && forall i, j :: 0 <= i < j < |ks| ==> ks[i] != ks[j] {
        assert ks[0] !in ks[1..];
        assert ks[0] !in rest;
        var r := [ks[0]] + rest;
        forall i, j | 0 <= i < j < |r| ensures r[i] != r[j] {
          if i == 0 {
            assert r[j] in rest;
          } else {
            assert r[i] == rest[i - 1] && r[j] == rest[j - 1];
          }
        }
      }
      if k !in ks {
        assert ks == [ks[0]] + ks[1..];
      }
    }
  }

  /** Popping keeps a dictionary well formed. */
  lemma PopValid<V>(d: Dict<V>, k: string)
    requires Valid(d)
    ensures Valid(Pop(d, k))
  {
    WithoutMembers(d.keys, k);
  }

  /** Popping several keys keeps a dictionary well formed. */
  lemma {:induction false} PopAllValid<V>(d: Dict<V>, ks: seq<string>)
    requires Valid(d)
    ensures Valid(PopAll(d, ks))
    decreases |ks|
  {
    if ks != [] {
      PopValid(d, ks[0]);
      PopAllValid(Pop(d, ks[0]), ks[1..]);
    }
  }

  /** Reading a key after popping each of `ks`. */
  lemma {:induction false} PopAllLookup<V>(d: Dict<V>, ks: seq<string>, j: string)
    ensures Lookup(PopAll(d, ks), j) == if j in ks then None else Lookup(d, j)
    decreases |ks|
  {
    if ks != [] {
      PopAllLookup(Pop(d, ks[0]), ks[1..], j);
      assert j in ks <==> j == ks[0] || j in ks[1..];
    }
  }

  /** Popping keys that are all absent changes nothing. */
  lemma {:induction false} PopAllAbsent<V>(d: Dict<V>, ks: seq<string>)
    requires Valid(d)
    requires forall k :: k in ks ==> k !in d.values
    ensures PopAll(d, ks) == d
    decreases |ks|
  {
    if ks != [] {
      assert ks[0] in ks;
      assert ks[0] !in d.keys;
      WithoutMembers(d.keys, ks[0]);
      assert Pop(d, ks[0]) == d;
      PopAllAbsent(d, ks[1..]);
    }
  }
}

=== FILE: prompts.dfy ===
/** The record transforms and argument checks of the prompt-management
    script: the list projection, the detail URL, the deactivate and
    new-version write-backs, and the CLI requirement check. */
module Prompts {
  import opened Wrappers
  import opened Dicts
  import opened Text

  /** A decoded JSON value. */
  datatype Json =
    | JNull
    | JBool(b: bool)
    | JInt(i: int)
    | JStr(s: string)
    | JList(items: seq<Json>)
    | JObject(fields: Dict<Json>)

  /** Python truthiness of a decoded value: `None`, `False`, `0`, `""`,
      `[]` and `{}` are false. */
  predicate Truthy(j: Json) {
    match j
    case JNull => false
    case JBool(b) => b
    case JInt(i) => i != 0
    case JStr(s) => s != []
    case JList(items) => items != []
    case JObject(fields) => fields.keys != []
  }

  /** Why a transform raises or exits. */
  datatype PromptError =
    | KeyError(key: string)    // `prompt[key]` on a missing key
    | NotAnObject              // subscripting or assigning into a non-dict
    | PromptNotFound           // `if not prompt_details: sys.exit(1)`

  // ---------------------------------------------------------------- projection

  /** The keys read from a prompt, in evaluation order, and the keys they are
      stored under in the listing. */
  const SourceKeys: seq<string> := ["prompt_type", "name", "version_tag", "is_active"]
  const ListedKeys: seq<string> := ["prompt_type", "prompt_name", "version_tag", "is_active"]

  /** Index of the first of `keys` missing from `d`, or `|keys|`. */
  function FirstMissing(d: Dict<Json>, keys: seq<string>): (i: nat)
    ensures i <= |keys|
    ensures forall j :: 0 <= j < i ==> keys[j] in d.values
    ensures i < |keys| ==> keys[i] !in d.values
    decreases |keys|
  {
    if keys == [] || keys[0] !in d.values then 0
    else 1 + FirstMissing(d, keys[1..])
  }

  /** One element of `prompt_list`: the dict literal reads its four source
      keys in order, so the first missing one raises `KeyError`. */
  function ProjectPrompt(p: Json): (r: Result<Dict<Json>, PromptError>)
    ensures r.Ok? <==> p.JObject? && forall k :: k in SourceKeys ==> k in p.fields.values
    ensures !p.JObject? ==> r == Err(NotAnObject)
    ensures p.JObject? && r.Err? ==>
              exists i :: 0 <= i < |SourceKeys| && r.error == KeyError(SourceKeys[i])
                && SourceKeys[i] !in p.fields.values
                && forall j :: 0 <= j < i ==> SourceKeys[j] in p.fields.values
    ensures r.Ok? ==> r.value.keys == ListedKeys && Valid(r.value)
    ensures r.Ok? ==> forall i :: 0 <= i < 4 ==> Lookup(r.value, ListedKeys[i]) == Lookup(p.fields, SourceKeys[i])
  {
    if !p.JObject? then Err(NotAnObject)
    else
      var d := p.fields;
      var m := FirstMissing(d, SourceKeys);
      if m < |SourceKeys| then Err(KeyError(SourceKeys[m]))
      else
        var out: Dict<Json> := Dict(ListedKeys, map[
          "prompt_type" := d.values["prompt_type"],
          "prompt_name" := d.values["name"],
          "version_tag" := d.values["version_tag"],
          "is_active" := d.values["is_active"]]);
        Ok(out)
  }

  /** `get_all_prompts` after a 200: one listing per prompt, in order, or the
      error of the first prompt that cannot be projected. */
  function ProjectPrompts(ps: seq<Json>): (r: Result<seq<Dict<Json>>, PromptError>)
    ensures r.Ok? <==> forall k :: 0 <= k < |ps| ==> ProjectPrompt(ps[k]).Ok?
    ensures r.Ok? ==> |r.value| == |ps|
    ensures r.Ok? ==> forall k :: 0 <= k < |ps| ==> Ok(r.value[k]) == ProjectPrompt(ps[k])
    ensures r.Err? ==> exists k :: FirstFailing(ps, ProjectPrompt, k) && Err(r.error) == ProjectPrompt(ps[k])
  {
    MapResults(ps, ProjectPrompt)
  }

  // ---------------------------------------------------------------- detail URL

  /** The path of one prompt, before any query. */
  function PromptPath(base: string, promptId: string): string {
    base + "/prompt-management-service/prompts/" + promptId
  }

  const VersionQuery: string := "?version_tag="

  /** Python truthiness of the optional `version_tag` argument. */
  predicate TagGiven(tag: Option<string>) {
    tag.Some? && tag.value != []
  }

  /** The URL `get_prompt_details` requests: the query is appended only for
      a truthy tag. */
  function DetailsUrl(base: string, promptId: string, tag: Option<string>): (r: string)
    ensures PromptPath(base, promptId) <= r
    ensures |r| == |PromptPath(base, promptId)| <==> !TagGiven(tag)
  {
    var url := PromptPath(base, promptId);
    if TagGiven(tag) then url + VersionQuery + tag.value else url
  }

  /** Reads the tag back from a URL built on `path`. */
  function QueryTag(url: string, path: string): Option<string> {
    if path + VersionQuery <= url then Some(url[|path| + |VersionQuery|..]) else None
  }

  /** The tag can be read back from the URL exactly when it was truthy, so an
      absent tag and an empty one give the same request. */
  lemma DetailsUrlRoundTrip(base: string, promptId: string, tag: Option<string>)
    ensures QueryTag(DetailsUrl(base, promptId, tag), PromptPath(base, promptId)) ==
              if TagGiven(tag) then tag else None
  {
    var path := PromptPath(base, promptId);
    var url := DetailsUrl(base, promptId, tag);
    if TagGiven(tag) {
      assert url == (path + VersionQuery) + tag.value;
      assert url[|path| + |VersionQuery|..] == tag.value;
    } else {
      assert |url| < |path + VersionQuery|;
    }
  }

  // ---------------------------------------------------------- write-back fields

  /** The audit fields both write-backs drop. */
  const AuditFields: seq<string> := ["created_by", "updated_by", "created_at", "updated_at"]

  /** The fields the new-version write-back drops. */
  const NewVersionDropped: seq<string> := ["id", "created_by", "updated_by", "created_at", "updated_at"]

  /** What `deactivate_prompt` sends for key `k`, key by key: `is_active`
      is false, the audit fields are gone, everything else (including `id`)
      is as fetched. */
  function DeactivatedField(d: Dict<Json>, k: string): Option<Json> {
    if k == "is_active" then Some(JBool(false))
    else if k in AuditFields then None
    else Lookup(d, k)
  }

  lemma DeactivateByKey(d: Dict<Json>)
    ensures forall k :: Lookup(PopAll(Set(d, "is_active", JBool(false)), AuditFields), k) == DeactivatedField(d, k)
  {
    var s := Set(d, "is_active", JBool(false));
    forall k ensures Lookup(PopAll(s, AuditFields), k) == DeactivatedField(d, k) {
      PopAllLookup(s, AuditFields, k);
      SetLookup(d, "is_active", JBool(false), k);
      if k == "is_active" {
        IsActiveNotDropped();
      }
    }
  }

  lemma IsActiveNotDropped()
    ensures "is_active" !in NewVersionDropped
  {
    assert "is_active" != "id";
    assert "is_active" != "created_by";
    assert "is_active" != "updated_by";
    assert "is_active" != "created_at";
    assert "is_active" != "updated_at";
  }

  /** The body `deactivate_prompt` sends back: `is_active = False`, then the
      four audit fields popped. */
  function Deactivate(d: Dict<Json>): (r: Dict<Json>)
    ensures forall k :: Lookup(r, k) == DeactivatedField(d, k)
  {
    DeactivateByKey(d);
    PopAll(Set(d, "is_active", JBool(false)), AuditFields)
  }

  /** Deactivating an already deactivated record changes nothing. */
  lemma DeactivateIdempotent(d: Dict<Json>)
    requires Valid(d)
    ensures Deactivate(Deactivate(d)) == Deactivate(d)
  {
    var once := Deactivate(d);
    DeactivateValid(d);
    DeactivatedIsInactive(d);
    DeactivatedHasNoAudit(d);
    SetExisting(once, "is_active", JBool(false));
    PopAllAbsent(once, AuditFields);
  }

  /** The deactivated record is a well-formed dictionary. */
  lemma DeactivateValid(d: Dict<Json>)
    requires Valid(d)
    ensures Valid(Deactivate(d))
  {
    SetValid(d, "is_active", JBool(false));
    PopAllValid(Set(d, "is_active", JBool(false)), AuditFields);
  }

  /** A deactivated record has `is_active` false. */
  lemma DeactivatedIsInactive(d: Dict<Json>)
    ensures "is_active" in Deactivate(d).values && Deactivate(d).values["is_active"] == JBool(false)
  {
    assert Lookup(Deactivate(d), "is_active") == DeactivatedField(d, "is_active");
  }

  /** A deactivated record has no audit field. */
  lemma DeactivatedHasNoAudit(d: Dict<Json>)
    ensures forall k :: k in AuditFields ==> k !in Deactivate(d).values
  {
    forall k | k in AuditFields ensures k !in Deactivate(d).values {
      assert Lookup(Deactivate(d), k) == DeactivatedField(d, k);
    }
  }

  /** `new_version_tag` from the command line: a string or `None`. */
  function TagValue(tag: Option<string>): Json {
    if tag.Some? then JStr(tag.value) else JNull
  }

  /** What `update_system_prompt` posts for key `k`: the new tag, the new
      definition, `is_active` true, `id` and the audit fields gone, and every
      other key as fetched. */
  function NewVersionField(d: Dict<Json>, tag: Option<string>, text: string, k: string): Option<Json> {
    if k == "version_tag" then Some(TagValue(tag))
    else if k == "prompt_definition" then Some(JStr(text))
    else if k == "is_active" then Some(JBool(true))
    else if k in NewVersionDropped then None
    else Lookup(d, k)
  }

  /** The three assignments of the new-version transform. */
  function SetNewFields(d: Dict<Json>, tag: Option<string>, text: string): Dict<Json> {
    Set(Set(Set(d, "version_tag", TagValue(tag)), "prompt_definition", JStr(text)), "is_active", JBool(true))
  }

  lemma NewVersionByKey(d: Dict<Json>, tag: Option<string>, text: string)
    ensures forall k :: Lookup(PopAll(SetNewFields(d, tag, text), NewVersionDropped), k) == NewVersionField(d, tag, text, k)
  {
    var s1 := Set(d, "version_tag", TagValue(tag));
    var s2 := Set(s1, "prompt_definition", JStr(text));
    var s3 := Set(s2, "is_active", JBool(true));
    forall k ensures Lookup(PopAll(s3, NewVersionDropped), k) == NewVersionField(d, tag, text, k) {
      PopAllLookup(s3, NewVersionDropped, k);
      SetLookup(s2, "is_active", JBool(true), k);
      SetLookup(s1, "prompt_definition", JStr(text), k);
      SetLookup(d, "version_tag", TagValue(tag), k);
      NewFieldsNotDropped();
    }
  }

  lemma NewFieldsNotDropped()
    ensures "is_active" !in NewVersionDropped
    ensures "version_tag" !in NewVersionDropped
    ensures "prompt_definition" !in NewVersionDropped
  {
    IsActiveNotDropped();
    assert forall k :: k in NewVersionDropped ==> |k| <= 10;
  }

  /** The body `update_system_prompt` posts: the three assignments, then
      `id` and the audit fields popped. */
  function NewVersion(d: Dict<Json>, tag: Option<string>, text: string): (r: Dict<Json>)
    ensures forall k :: Lookup(r, k) == NewVersionField(d, tag, text, k)
  {
    NewVersionByKey(d, tag, text);
    PopAll(SetNewFields(d, tag, text), NewVersionDropped)
  }

  /** The transformed record never carries `id` or an audit field. */
  lemma NewVersionDropsIdentity(d: Dict<Json>, tag: Option<string>, text: string)
    ensures forall k :: k in NewVersionDropped ==> k !in NewVersion(d, tag, text).values
  {
    NewFieldsNotDropped();
    forall k | k in NewVersionDropped ensures k !in NewVersion(d, tag, text).values {
      assert Lookup(NewVersion(d, tag, text), k) == NewVersionField(d, tag, text, k);
    }
  }

  /** The new-version record is a well-formed dictionary. */
  lemma NewVersionValid(d: Dict<Json>, tag: Option<string>, text: string)
    requires Valid(d)
    ensures Valid(NewVersion(d, tag, text))
  {
    var s1 := Set(d, "version_tag", TagValue(tag));
    var s2 := Set(s1, "prompt_definition", JStr(text));
    SetValid(d, "version_tag", TagValue(tag));
    SetValid(s1, "prompt_definition", JStr(text));
    SetValid(s2, "is_active", JBool(true));
    PopAllValid(SetNewFields(d, tag, text), NewVersionDropped);
  }

  /** The transformed record holds the three new values. */
  lemma NewVersionHasNewFields(d: Dict<Json>, tag: Option<string>, text: string)
    ensures var r := NewVersion(d, tag, text);
      && "version_tag" in r.values && r.values["version_tag"] == TagValue(tag)
      && "prompt_definition" in r.values && r.values["prompt_definition"] == JStr(text)
      && "is_active" in r.values && r.values["is_active"] == JBool(true)
  {
    var r := NewVersion(d, tag, text);
    assert Lookup(r, "version_tag") == NewVersionField(d, tag, text, "version_tag");
    assert Lookup(r, "prompt_definition") == NewVersionField(d, tag, text, "prompt_definition");
    assert Lookup(r, "is_active") == NewVersionField(d, tag, text, "is_active");
  }

  /** Applying the new-version transform twice with the same arguments gives
      the same record as applying it once. */
  lemma NewVersionIdempotent(d: Dict<Json>, tag: Option<string>, text: string)
    requires Valid(d)
    ensures NewVersion(NewVersion(d, tag, text), tag, text) == NewVersion(d, tag, text)
  {
    var once := NewVersion(d, tag, text);
    NewVersionValid(d, tag, text);
    NewVersionHasNewFields(d, tag, text);
    NewVersionDropsIdentity(d, tag, text);
    SetExisting(once, "version_tag", TagValue(tag));
    SetExisting(once, "prompt_definition", JStr(text));
    SetExisting(once, "is_active", JBool(true));
    assert SetNewFields(once, tag, text) == once;
    PopAllAbsent(once, NewVersionDropped);
  }

  /** `deactivate_prompt` on the fetched details: a falsy body exits, a
      non-dict body cannot be assigned into, a dict is transformed. */
  function DeactivateDetails(details: Json): (r: Result<Dict<Json>, PromptError>)
    ensures !Truthy(details) ==> r == Err(PromptNotFound)
    ensures Truthy(details) && !details.JObject? ==> r == Err(NotAnObject)
    ensures r.Ok? <==> Truthy(details) && details.JObject?
    ensures r.Ok? ==> r.value == Deactivate(details.fields)
  {
    if !Truthy(details) then Err(PromptNotFound)
    else if !details.JObject? then Err(NotAnObject)
    else Ok(Deactivate(details.fields))
  }

  /** `update_system_prompt` on the fetched details, with the same guard. */
  function NewVersionDetails(details: Json, tag: Option<string>, text: string): (r: Result<Dict<Json>, PromptError>)
    ensures !Truthy(details) ==> r == Err(PromptNotFound)
    ensures Truthy(details) && !details.JObject? ==> r == Err(NotAnObject)
    ensures r.Ok? <==> Truthy(details) && details.JObject?
    ensures r.Ok? ==> r.value == NewVersion(details.fields, tag, text)
  {
    if !Truthy(details) then Err(PromptNotFound)
    else if !details.JObject? then Err(NotAnObject)
    else Ok(NewVersion(details.fields, tag, text))
  }

  // ------------------------------------------------------------ argument check

  /** The choices argparse accepts for `--action`. */
  const Actions: seq<string> := ["get_all", "get", "deactivate", "update"]

  /** The parsed command line; absent options are `None`. */
  datatype PromptArgs = PromptArgs(
    action: Option<string>,
    promptTextFile: Option<string>,
    promptId: Option<string>,
    newVersionTag: Option<string>)

  /** What `main` does after its three early checks. */
  datatype Verdict =
    | NoAction                          // no `--action`
    | NeedsPromptId(action: string)     // `get`/`deactivate` without `--prompt_id`
    | NeedsIdAndFile(action: string)    // `update` without `--prompt_id` or `--prompt_text_file`
    | Proceed(action: string)

  /** The checks as written; the third uses `in ('update')`, which is a
      substring test on the string `'update'`, not a tuple membership. */
  function CheckArgs(args: PromptArgs): (r: Verdict)
    requires args.action.Some? ==> args.action.value in Actions
    ensures r == NoAction <==> args.action.None?
    ensures r.NeedsPromptId? <==>
              args.action.Some? && args.action.value in ["get", "deactivate"] && args.promptId.None?
    ensures r.NeedsIdAndFile? <==>
              args.action == Some("update") && (args.promptId.None? || args.promptTextFile.None?)
    ensures r.Proceed? ==> args.action.Some? && r.action == args.action.value
  {
    if args.action.None? then NoAction
    else
      var a := args.action.value;
      if a in ["get", "deactivate"] && args.promptId.None? then NeedsPromptId(a)
      else if Contains("update", a) && (args.promptId.None? || args.promptTextFile.None?) then
        UpdateTestIsEquality(a);
        NeedsIdAndFile(a)
      else
        UpdateTestIsEquality(a);
        Proceed(a)
  }

  /** Over the argparse choices, `a in ('update')` holds only for `update`. */
  lemma UpdateTestIsEquality(a: string)
    requires a in Actions
    ensures Contains("update", a) <==> a == "update"
  {
    if a == "get_all" || a == "deactivate" {
      ContainsTooLong("update", a);
    } else if a == "get" {
      assert "update" == ['u', 'p', 'd', 'a', 't', 'e'];
      ContainsNeedsFirstChar("update", a);
    }
  }

  /** A needle whose first character does not occur in the haystack is not
      a substring of it. */
  lemma {:induction false} ContainsNeedsFirstChar(hay: string, needle: string)
    requires needle != [] && needle[0] !in hay
    ensures !Contains(hay, needle)
    decreases |hay|
  {
    if hay != [] {
      assert hay[0] in hay;
      assert forall c :: c in hay[1..] ==> c in hay;
      ContainsNeedsFirstChar(hay[1..], needle);
    }
  }

  /** A needle longer than the haystack is never a substring. */
  lemma {:induction false} ContainsTooLong(hay: string, needle: string)
    requires |needle| > |hay|
    ensures !Contains(hay, needle)
    decreases |hay|
  {
    if hay != [] {
      ContainsTooLong(hay[1..], needle);
    }
  }

  /** The optional `--new_version_tag` never decides the verdict. */
  lemma VersionTagNeverRequired(args: PromptArgs, tag: Option<string>)
    requires args.action.Some? ==> args.action.value in Actions
    ensures CheckArgs(args.(newVersionTag := tag)) == CheckArgs(args)
  {
  }
}

=== FILE: sse.dfy ===
/** The server-sent-events handling of `get_agent_response` (both the
    `AgentService` and the `AgentOperations` copy): `parse_sse_event`, which
    folds the lines of one string into a field dictionary and then tries to
    build an event from it, and the loop that applies it to every non-empty
    line of the streamed body. */
module Sse {
  import opened Wrappers
  import opened Text

  /** The four fields `parse_sse_event` recognises. */
  datatype Tag = Data | Id | Event | Retry

  /** The prefix a line is tested against with `startswith`. */
  function Prefix(t: Tag): string {
    match t
    case Data => "data:"
    case Id => "id:"
    case Event => "event:"
    case Retry => "retry:"
  }

  /** The literal whose LENGTH is sliced off the line: the prefix plus a
      space, whether or not the line actually has that space. */
  function SlicedLiteral(t: Tag): string {
    match t
    case Data => "data: "
    case Id => "id: "
    case Event => "event: "
    case Retry => "retry: "
  }

  /** The `if`/`elif` chain: which field a line sets, if any. The tests run in
      the order data, id, event, retry, but no two prefixes can both match,
      so the tag is exactly the one whose prefix the line starts with. */
  function TagOf(line: string): (r: Option<Tag>)
    ensures forall t :: r == Some(t) <==> Prefix(t) <= line
  {
    PrefixesExclusive(line);
    if Prefix(Data) <= line then Some(Data)
    else if Prefix(Id) <= line then Some(Id)
    else if Prefix(Event) <= line then Some(Event)
    else if Prefix(Retry) <= line then Some(Retry)
    else None
  }

  /** The four prefixes start with four different letters. */
  lemma PrefixesExclusive(line: string)
    ensures forall t1, t2 :: Prefix(t1) <= line && Prefix(t2) <= line ==> t1 == t2
  {
    forall t1, t2 | Prefix(t1) <= line && Prefix(t2) <= line
      ensures t1 == t2
    {
      assert Prefix(t1)[0] == line[0] == Prefix(t2)[0];
    }
  }

  /** What is left of a tagged line once the literal is sliced off and the
      result stripped. */
  function Remainder(t: Tag, line: string): string {
    Strip(SliceFrom(line, |SlicedLiteral(t)|))
  }

  /** A value stored in the field dictionary: `retry` holds an `int`, the
      other fields hold strings. */
  datatype FieldValue = Text(s: string) | Number(n: int)

  /** The one error `parse_sse_event` lets escape: `int()` raising
      `ValueError` on a `retry:` remainder, outside the suppressed region. */
  datatype SseError = RetryNotInteger(text: string)

  /** The value a tagged line stores, or the error it raises. */
  function FieldValueOf(t: Tag, line: string): Result<FieldValue, SseError> {
    var rest := Remainder(t, line);
    if t == Retry then
      match ParseInt(rest)
      case Some(n) => Ok(Number(n))
      case None => Err(RetryNotInteger(rest))
    else Ok(Text(rest))
  }

  /** `event_data`: the dictionary built up line by line. */
  type Fields = map<Tag, FieldValue>

  /** `retry` holds a number and every other field holds text. */
  predicate WellTyped(f: Fields) {
    forall t :: t in f ==> (f[t].Number? <==> t == Retry)
  }

  /** A `retry:` line whose remainder `int()` rejects. */
  predicate BadRetry(line: string) {
    TagOf(line) == Some(Retry) && FieldValueOf(Retry, line).Err?
  }

  /** One iteration of the loop over lines. A line sets at most the one field
      its prefix names, overwriting any earlier value; an untagged line
      changes nothing; only a bad `retry:` line fails. */
  function ApplyLine(f: Fields, line: string): (r: Result<Fields, SseError>)
    ensures r.Err? <==> BadRetry(line)
    ensures TagOf(line).None? ==> r == Ok(f)
    ensures r.Ok? ==> forall t :: Some(t) != TagOf(line) ==>
              (t in r.value <==> t in f) && (t in f ==> r.value[t] == f[t])
    ensures r.Ok? && TagOf(line).Some? ==>
              TagOf(line).value in r.value &&
              Ok(r.value[TagOf(line).value]) == FieldValueOf(TagOf(line).value, line)
    ensures r.Ok? && WellTyped(f) ==> WellTyped(r.value)
  {
    match TagOf(line)
    case None => Ok(f)
    case Some(t) =>
      match FieldValueOf(t, line)
      case Err(e) => Err(e)
      case Ok(v) => Ok(f[t := v])
  }

  /** The whole `for line in lines` loop, as a fold over the prefix read so far. */
  function Scan(lines: seq<string>): (r: Result<Fields, SseError>)
    ensures r.Ok? ==> WellTyped(r.value)
    decreases |lines|
  {
    if lines == [] then Ok(map[])
    else
      match Scan(lines[..|lines| - 1])
      case Err(e) => Err(e)
      case Ok(f) => ApplyLine(f, lines[|lines| - 1])
  }

  /** Line `i` is the last line of `lines` tagged `t`. */
  predicate LastTagged(lines: seq<string>, t: Tag, i: int) {
    && 0 <= i < |lines|
    && TagOf(lines[i]) == Some(t)
    && forall j :: i < j < |lines| ==> TagOf(lines[j]) != Some(t)
  }

  /** Line `i` is the first bad `retry:` line of `lines`. */
  predicate FirstBadRetry(lines: seq<string>, i: int) {
    && 0 <= i < |lines|
    && BadRetry(lines[i])
    && forall j :: 0 <= j < i ==> !BadRetry(lines[j])
  }

  /** Reading one more line: a failed scan stays failed, otherwise the line is applied. */
  lemma ScanSnoc(p: seq<string>, x: string)
    ensures Scan(p).Err? ==> Scan(p + [x]) == Scan(p)
    ensures Scan(p).Ok? ==> Scan(p + [x]) == ApplyLine(Scan(p).value, x)
  {
    assert (p + [x])[..|p|] == p;
  }

  /** The parse fails exactly when some `retry:` line is not an integer,
      even one a later `retry:` line would have overwritten. */
  lemma {:induction false} ScanFailure(lines: seq<string>)
    ensures Scan(lines).Ok? <==> forall i :: 0 <= i < |lines| ==> !BadRetry(lines[i])
    decreases |lines|
  {
    if lines != [] {
      var n := |lines| - 1;
      var p, x := lines[..n], lines[n];
      assert lines == p + [x];
      ScanFailure(p);
      ScanSnoc(p, x);
      if Scan(p).Ok? && !BadRetry(x) {
        forall i | 0 <= i < |lines|
          ensures !BadRetry(lines[i])
        {
          if i < n {
            assert lines[i] == p[i];
          }
        }
      } else if Scan(p).Err? {
        var j :| 0 <= j < n && BadRetry(p[j]);
        assert lines[j] == p[j];
      }
    }
  }

  /** When the parse fails, the error raised is the one for the first bad
      `retry:` line: the loop stops there. */
  lemma {:induction false} ScanFirstError(lines: seq<string>) returns (i: int)
    requires Scan(lines).Err?
    ensures FirstBadRetry(lines, i)
    ensures Err(Scan(lines).error) == FieldValueOf(Retry, lines[i])
    decreases |lines|
  {
    var n := |lines| - 1;
    var p := lines[..n];
    assert forall j :: 0 <= j < n ==> p[j] == lines[j];
    if Scan(p).Err? {
      i := ScanFirstError(p);
    } else {
      ScanFailure(p);
      i := n;
    }
  }

  /** A field is present exactly when some line carries its prefix. */
  lemma {:induction false} ScanKeys(lines: seq<string>)
    requires Scan(lines).Ok?
    ensures forall t :: t in Scan(lines).value <==>
              exists i :: 0 <= i < |lines| && TagOf(lines[i]) == Some(t)
    decreases |lines|
  {
    if lines != [] {
      var n := |lines| - 1;
      var p := lines[..n];
      ScanKeys(p);
      assert forall j :: 0 <= j < n ==> p[j] == lines[j];
      forall t
        ensures t in Scan(lines).value <==>
                  exists i :: 0 <= i < |lines| && TagOf(lines[i]) == Some(t)
      {
        if TagOf(lines[n]) != Some(t) && t !in Scan(lines).value {
          forall i | 0 <= i < |lines|
            ensures TagOf(lines[i]) != Some(t)
          {
            if i < n {
              assert TagOf(p[i]) != Some(t);
            }
          }
        }
      }
    }
  }

  /** The last line with a given prefix determines that field's value:
      dictionary assignment overwrites. */
  lemma {:induction false} ScanLastWins(lines: seq<string>)
    requires Scan(lines).Ok?
    ensures forall t, i :: LastTagged(lines, t, i) ==>
              t in Scan(lines).value && Ok(Scan(lines).value[t]) == FieldValueOf(t, lines[i])
    decreases |lines|
  {
    if lines != [] {
      var n := |lines| - 1;
      var p := lines[..n];
      ScanLastWins(p);
      forall t, i | LastTagged(lines, t, i)
        ensures t in Scan(lines).value && Ok(Scan(lines).value[t]) == FieldValueOf(t, lines[i])
      {
        if i < n {
          assert LastTagged(p, t, i);
        }
      }
    }
  }

  /** `GetAgentResponse`: one event of a streamed reply. */
  datatype AgentResponseEvent = AgentResponseEvent(
    data: Option<string>, id: Option<string>, event: Option<string>, retry: Option<int>)

  function TextField(f: Fields, t: Tag): Option<string> {
    if t in f && f[t].Text? then Some(f[t].s) else None
  }

  /** `GetAgentResponse(**event_data)` once validation has accepted the fields. */
  function ToEvent(f: Fields): (e: AgentResponseEvent)
    requires WellTyped(f)
    ensures e.data.Some? <==> Data in f
    ensures e.id.Some? <==> Id in f
    ensures e.event.Some? <==> Event in f
    ensures e.retry.Some? <==> Retry in f
    ensures Data in f ==> f[Data] == Text(e.data.value)
    ensures Id in f ==> f[Id] == Text(e.id.value)
    ensures Event in f ==> f[Event] == Text(e.event.value)
    ensures Retry in f ==> f[Retry] == Number(e.retry.value)
  {
    AgentResponseEvent(
      TextField(f, Data), TextField(f, Id), TextField(f, Event),
      if Retry in f then Some(f[Retry].n) else None)
  }

  /** `parse_sse_event(event_string)`. The string is split with
      `str.splitlines()`, the lines are folded into the field dictionary, and
      the event model's validation — here the parameter `accepts`, since its
      definition is not part of this model — decides between an event and
      `None` (the suppressed `ValidationError`). A bad `retry:` value is not
      suppressed and fails the call. */
  function ParseEvent(block: string, accepts: Fields -> bool): (r: Result<Option<AgentResponseEvent>, SseError>)
    ensures var lines := SplitLines(TextLines, block);
      && (r.Ok? <==> Scan(lines).Ok?)
      && (r.Ok? <==> forall i :: 0 <= i < |lines| ==> !BadRetry(lines[i]))
      && (r.Ok? ==> (r.value.Some? <==> accepts(Scan(lines).value)))
      && (r.Ok? && r.value.Some? ==> r.value.value == ToEvent(Scan(lines).value))
      && (r.Ok? && r.value.Some? ==>
            (r.value.value.data.Some? <==> exists i :: 0 <= i < |lines| && TagOf(lines[i]) == Some(Data)))
      && (r.Ok? && r.value.Some? ==>
            (r.value.value.id.Some? <==> exists i :: 0 <= i < |lines| && TagOf(lines[i]) == Some(Id)))
      && (r.Ok? && r.value.Some? ==>
            (r.value.value.event.Some? <==> exists i :: 0 <= i < |lines| && TagOf(lines[i]) == Some(Event)))
      && (r.Ok? && r.value.Some? ==>
            (r.value.value.retry.Some? <==> exists i :: 0 <= i < |lines| && TagOf(lines[i]) == Some(Retry)))
  {
    var lines := SplitLines(TextLines, block);
    ScanFailure(lines);
    match Scan(lines)
    case Err(e) => Err(e)
    case Ok(f) =>
      ScanKeys(lines);
      Ok(if accepts(f) then Some(ToEvent(f)) else None)
  }

  /** Each field of the event holds what the last line carrying its prefix
      stored: the stripped text after the sliced literal, or for `retry` the
      integer it spells. */
  lemma ParseEventValues(block: string, accepts: Fields -> bool, i: int)
    requires ParseEvent(block, accepts).Ok? && ParseEvent(block, accepts).value.Some?
    ensures var lines := SplitLines(TextLines, block);
      var e := ParseEvent(block, accepts).value.value;
      && (LastTagged(lines, Data, i) ==> e.data == Some(Remainder(Data, lines[i])))
      && (LastTagged(lines, Id, i) ==> e.id == Some(Remainder(Id, lines[i])))
      && (LastTagged(lines, Event, i) ==> e.event == Some(Remainder(Event, lines[i])))
      && (LastTagged(lines, Retry, i) ==> e.retry == ParseInt(Remainder(Retry, lines[i])))
  {
    ScanLastWins(SplitLines(TextLines, block));
  }

  /** A `data: <payload>` line is tagged `data` and stores the payload. */
  lemma DataLineValue(payload: string)
    requires payload == [] || (!IsSpace(payload[0]) && !IsSpace(payload[|payload| - 1]))
    ensures TagOf("data: " + payload) == Some(Data)
    ensures FieldValueOf(Data, "data: " + payload) == Ok(Text(payload))
  {
    assert "data: " + payload == Prefix(Data) + [' '] + payload;
    SliceDropsCharAfterColon(Data, ' ', payload);
    StripPadded([], payload, []);
    assert [] + payload + [] == payload;
  }

  /** A single `data: <payload>` line stores exactly the payload. */
  lemma DataLineFields(payload: string)
    requires NoBreak(TextLines, payload)
    requires payload == [] || (!IsSpace(payload[0]) && !IsSpace(payload[|payload| - 1]))
    ensures Scan(SplitLines(TextLines, "data: " + payload)) == Ok(map[Data := Text(payload)])
  {
    var line := "data: " + payload;
    DataLiteralUnbroken();
    NoBreakAppend(TextLines, "data: ", payload);
    OneLineOneField(line);
    DataLineValue(payload);
    assert ApplyLine(map[], line) == Ok(map[][Data := Text(payload)]);
  }

  lemma DataLiteralUnbroken()
    ensures NoBreak(TextLines, "data: ")
  {
  }

  /** The line `data: <payload>`, payload already stripped, parses to the
      event that carries that payload and nothing else: for example
      `data: hello` gives the payload `hello`. */
  lemma DataLineEvent(payload: string, accepts: Fields -> bool)
    requires NoBreak(TextLines, payload)
    requires payload == [] || (!IsSpace(payload[0]) && !IsSpace(payload[|payload| - 1]))
    requires accepts(map[Data := Text(payload)])
    ensures ParseEvent("data: " + payload, accepts) == Ok(Some(AgentResponseEvent(Some(payload), None, None, None)))
  {
    DataLineFields(payload);
    var f := map[Data := Text(payload)];
    assert ToEvent(f) == AgentResponseEvent(Some(payload), None, None, None);
  }

  /** `if line:` — the empty lines of the body are skipped. */
  function NonEmptyLines(ls: seq<string>): (r: seq<string>)
    ensures |r| <= |ls|
    ensures forall k :: 0 <= k < |r| ==> r[k] != [] && r[k] in ls
    ensures forall k :: 0 <= k < |ls| && ls[k] != [] ==> ls[k] in r
  {
    if ls == [] then []
    else (if ls[0] == [] then [] else [ls[0]]) + NonEmptyLines(ls[1..])
  }

  /** Skipping empty lines keeps the other lines in their order: the filter
      distributes over concatenation. */
  lemma {:induction false} NonEmptyLinesAppend(a: seq<string>, b: seq<string>)
    ensures NonEmptyLines(a + b) == NonEmptyLines(a) + NonEmptyLines(b)
    decreases |a|
  {
    if a != [] {
      assert (a + b)[1..] == a[1..] + b;
      NonEmptyLinesAppend(a[1..], b);
    } else {
      assert a + b == b;
    }
  }

  /** The lines `iter_lines` yields that pass `if line:`. */
  function BodyLines(body: string): seq<string> {
    NonEmptyLines(SplitLines(ByteLines, body))
  }

  /** The loop at the end of `get_agent_response`: the streamed body is cut
      into lines the way `iter_lines` does (`\n`, `\r`, `\r\n`), empty lines
      are skipped, and every other line is given to `parse` on its own and
      its result appended, `None` included. The first line `parse` fails on
      aborts the call with that line's error. */
  function Assemble<B, E>(body: string, parse: string -> Result<B, E>): (r: Result<seq<B>, E>)
    ensures r.Ok? <==> forall k :: 0 <= k < |BodyLines(body)| ==> parse(BodyLines(body)[k]).Ok?
    ensures r.Ok? ==> |r.value| == |BodyLines(body)|
    ensures r.Ok? ==> forall k :: 0 <= k < |BodyLines(body)| ==> Ok(r.value[k]) == parse(BodyLines(body)[k])
    ensures r.Err? ==> exists k :: FirstFailing(BodyLines(body), parse, k) && Err(r.error) == parse(BodyLines(body)[k])
  {
    MapResults(BodyLines(body), parse)
  }

  /** Some line of `block`, once `str.splitlines()` has cut it, is a bad
      `retry:` line. */
  predicate HasBadRetry(block: string) {
    exists i :: 0 <= i < |SplitLines(TextLines, block)| && BadRetry(SplitLines(TextLines, block)[i])
  }

  /** The field dictionary `parse_sse_event` builds from `block`. */
  function BlockFields(block: string): Result<Fields, SseError> {
    Scan(SplitLines(TextLines, block))
  }

  /** `entry` is what `parse_sse_event` returns for `block` when it does not
      raise: an event built from the block's fields exactly when validation
      accepts them. */
  predicate EntryOf(block: string, accepts: Fields -> bool, entry: Option<AgentResponseEvent>) {
    && BlockFields(block).Ok?
    && (entry.Some? <==> accepts(BlockFields(block).value))
    && (entry.Some? ==> entry.value == ToEvent(BlockFields(block).value))
  }

  /** Line `k` is the first of `ls` holding a bad `retry:` value. */
  predicate FirstBadBlock(ls: seq<string>, k: int) {
    && 0 <= k < |ls|
    && HasBadRetry(ls[k])
    && forall j :: 0 <= j < k ==> !HasBadRetry(ls[j])
  }

  /** `parse_sse_event` on one block, summarised. */
  lemma ParseEventSummary(block: string, accepts: Fields -> bool)
    ensures ParseEvent(block, accepts).Ok? <==> !HasBadRetry(block)
    ensures ParseEvent(block, accepts).Ok? ==> EntryOf(block, accepts, ParseEvent(block, accepts).value)
    ensures ParseEvent(block, accepts).Err? ==> Err(ParseEvent(block, accepts).error) == BlockFields(block)
  {
  }

  /** `get_agent_response` after the status checks: `parse_sse_event`
      applied to every non-empty line of the body. The call fails iff some
      body line holds a bad `retry:` value, and then with the error of the
      first such body line; otherwise there is one entry per body line,
      an event exactly when validation accepts that line's fields. */
  function AgentResponses(body: string, accepts: Fields -> bool): (r: Result<seq<Option<AgentResponseEvent>>, SseError>)
    ensures r.Ok? <==> forall k :: 0 <= k < |BodyLines(body)| ==> !HasBadRetry(BodyLines(body)[k])
    ensures r.Ok? ==> |r.value| == |BodyLines(body)|
    ensures r.Ok? ==> forall k :: 0 <= k < |r.value| ==> EntryOf(BodyLines(body)[k], accepts, r.value[k])
    ensures r.Err? ==> exists k :: FirstBadBlock(BodyLines(body), k) && Err(r.error) == BlockFields(BodyLines(body)[k])
  {
    var parse := line => ParseEvent(line, accepts);
    var r := Assemble(body, parse);
    ParsedBlocks(BodyLines(body), accepts, parse, r);
    FirstBadBlockFails(BodyLines(body), accepts, parse, r);
    r
  }

  /** Without a bad `retry:` value, each block contributes its entry. */
  lemma ParsedBlocks(ls: seq<string>, accepts: Fields -> bool,
                     parse: string -> Result<Option<AgentResponseEvent>, SseError>,
                     r: Result<seq<Option<AgentResponseEvent>>, SseError>)
    requires forall x :: parse(x) == ParseEvent(x, accepts)
    requires r == MapResults(ls, parse)
    ensures r.Ok? <==> forall k :: 0 <= k < |ls| ==> !HasBadRetry(ls[k])
    ensures r.Ok? ==> |r.value| == |ls|
    ensures r.Ok? ==> forall k :: 0 <= k < |r.value| ==> EntryOf(ls[k], accepts, r.value[k])
  {
    forall k | 0 <= k < |ls|
      ensures parse(ls[k]).Ok? <==> !HasBadRetry(ls[k])
      ensures parse(ls[k]).Ok? ==> EntryOf(ls[k], accepts, parse(ls[k]).value)
    {
      ParseEventSummary(ls[k], accepts);
    }
  }

  /** A failing call reports the first block with a bad `retry:` value. */
  lemma FirstBadBlockFails(ls: seq<string>, accepts: Fields -> bool,
                           parse: string -> Result<Option<AgentResponseEvent>, SseError>,
                           r: Result<seq<Option<AgentResponseEvent>>, SseError>)
    requires forall x :: parse(x) == ParseEvent(x, accepts)
    requires r == MapResults(ls, parse)
    ensures r.Err? ==> exists k :: FirstBadBlock(ls, k) && Err(r.error) == BlockFields(ls[k])
  {
    if r.Err? {
      var k :| FirstFailing(ls, parse, k) && Err(r.error) == parse(ls[k]);
      ParseEventSummary(ls[k], accepts);
      forall j | 0 <= j < k
        ensures !HasBadRetry(ls[j])
      {
        ParseEventSummary(ls[j], accepts);
      }
      assert FirstBadBlock(ls, k);
    }
  }

  /** A line with none of `str.splitlines()`'s extra boundaries parses as a
      one-line block: it can set at most the field its prefix names. Since
      the body is already cut at `\n` and `\r`, this is the usual case, so a
      multi-line event in the stream becomes several separate entries. */
  lemma OneLineOneField(line: string)
    requires line != [] && NoBreak(TextLines, line)
    ensures Scan(SplitLines(TextLines, line)) == ApplyLine(map[], line)
    ensures forall f :: Scan(SplitLines(TextLines, line)) == Ok(f) ==>
              forall t :: t in f ==> TagOf(line) == Some(t)
  {
    SplitLinesOfOneLine(TextLines, line);
    assert [line][..0] == [];
  }

  /** The slice removes one character more than the prefix tested for, so
      whatever follows the colon is lost, space or not. */
  lemma SliceDropsCharAfterColon(t: Tag, c: char, rest: string)
    ensures Remainder(t, Prefix(t) + [c] + rest) == Strip(rest)
  {
    var line := Prefix(t) + [c] + rest;
    assert |SlicedLiteral(t)| == |Prefix(t)| + 1;
    assert line[|SlicedLiteral(t)|..] == rest;
  }

  /** A line that is only the prefix stores the empty string, except for
      `retry:`, where `int('')` fails the whole parse. */
  lemma BarePrefix(t: Tag)
    ensures t != Retry ==> FieldValueOf(t, Prefix(t)) == Ok(Text(""))
    ensures t == Retry ==> BadRetry(Prefix(t))
  {
    assert |SlicedLiteral(t)| > |Prefix(t)|;
  }

  /** A `retry:` line carrying the spelling of any integer stores that integer. */
  lemma RetryReadsBackIntegers(n: int)
    ensures FieldValueOf(Retry, "retry: " + DecimalString(n)) == Ok(Number(n))
  {
    var line := "retry: " + DecimalString(n);
    assert SliceFrom(line, |SlicedLiteral(Retry)|) == DecimalString(n);
    StripDecimal(n);
    ParseIntRoundTrip(n);
  }
}

=== FILE: status.dfy ===
/** How every call of `AgentService` and `AgentOperations` turns the HTTP
    status code into a result or a raised `AgentServiceException`. Each call
    checks a short ordered list of special codes (always 401 first) and then
    treats anything but 200 as a generic failure. */
module Status {

  /** The seven calls that inspect a status code. */
  datatype Call =
    | ServiceGetAgentTypes       // AgentService.get_agent_types
    | ServiceGetAgentResponse    // AgentService.get_agent_response
    | ServiceGetChatHistory      // AgentService.get_chat_history
    | ServiceDeleteChatHistory   // AgentService.delete_chat_history
    | OpsGetAllAgents            // AgentOperations.get_all_agents
    | OpsGetAgentResponse        // AgentOperations.get_agent_response
    | OpsGetAgent                // AgentOperations.get_agent

  /** What a raised `AgentServiceException` reports. */
  datatype Failure = AuthenticationFailed | NotFound | ValidationFailed | Generic

  /** The message argument of a raise: a string literal, or a module-level
      name that has to be bound when the raise is evaluated. */
  datatype Message = Literal(text: string) | Named(name: string)

  /** One `if response.status_code == code: raise ...` branch. `withBody` says
      whether `response_data` is the decoded body or `None`. */
  datatype Branch = Branch(code: int, kind: Failure, message: Message, withBody: bool)

  /** The result of the status checks. `NameErrorRaised` is what Python raises
      instead when a branch's message names something that is not bound. */
  datatype Outcome =
    | Success
    | Raised(status: int, kind: Failure, withBody: bool)
    | NameErrorRaised(name: string)

  /** The names `agents/service.py` imports from `config_models`. */
  const Imported: set<string> := {"AUTHENTICATION_FAILED_MESSAGE"}

  const AuthBranch := Branch(401, AuthenticationFailed, Named("AUTHENTICATION_FAILED_MESSAGE"), true)
  const ValidationMessage := Literal("Validation failed, ensure data entered is correct")

  /** The special codes each call checks, in order, as the file is written. */
  function BranchesAsWritten(c: Call): seq<Branch> {
    match c
    case ServiceGetAgentTypes => [AuthBranch]
    case ServiceGetAgentResponse => [AuthBranch, Branch(422, ValidationFailed, ValidationMessage, true)]
    case ServiceGetChatHistory => [AuthBranch]
    case ServiceDeleteChatHistory => [AuthBranch, Branch(422, ValidationFailed, ValidationMessage, true)]
    case OpsGetAllAgents =>
      [AuthBranch, Branch(404, NotFound, Literal("Failed to find agent configurations"), false)]
    case OpsGetAgentResponse =>
      [AuthBranch, Branch(422, ValidationFailed, Named("VALIDATION_FAILED_MESSAGE"), true)]
    case OpsGetAgent =>
      [AuthBranch, Branch(404, NotFound, Literal("Failed to find agent with ID {agent_id}"), true)]
  }

  /** The same lists with the 422 branch of `AgentOperations.get_agent_response`
      using the message `AgentService` uses for the same code. */
  function Branches(c: Call): seq<Branch> {
    if c == OpsGetAgentResponse then [AuthBranch, Branch(422, ValidationFailed, ValidationMessage, true)]
    else BranchesAsWritten(c)
  }

  /** Evaluates `raise AgentServiceException(status_code=..., message=..., ...)`. */
  function Raise(b: Branch): Outcome {
    match b.message
    case Named(n) => if n in Imported then Raised(b.code, b.kind, b.withBody) else NameErrorRaised(n)
    case Literal(_) => Raised(b.code, b.kind, b.withBody)
  }

  /** The `if`/`elif` chain: the first branch whose code matches raises;
      failing all of them, `!= 200` raises a generic failure. */
  function RunChain(bs: seq<Branch>, code: int): Outcome
    decreases |bs|
  {
    if bs == [] then
      if code != 200 then Raised(code, Generic, true) else Success
    else if code == bs[0].code then Raise(bs[0])
    else RunChain(bs[1..], code)
  }

  /** `RunChain` is first-match: the earliest branch listing `code` raises,
      and with no such branch the generic check decides. */
  lemma {:induction false} RunChainFirstMatch(bs: seq<Branch>, code: int)
    ensures (forall i :: 0 <= i < |bs| ==> bs[i].code != code) ==>
              RunChain(bs, code) == if code != 200 then Raised(code, Generic, true) else Success
    ensures forall i :: 0 <= i < |bs| && bs[i].code == code && (forall j :: 0 <= j < i ==> bs[j].code != code) ==>
              RunChain(bs, code) == Raise(bs[i])
    decreases |bs|
  {
    if bs != [] {
      RunChainFirstMatch(bs[1..], code);
      forall i | 0 <= i < |bs| && bs[i].code == code && (forall j :: 0 <= j < i ==> bs[j].code != code)
        ensures RunChain(bs, code) == Raise(bs[i])
      {
        if i > 0 {
          assert bs[1..][i - 1] == bs[i];
          assert forall j :: 0 <= j < i - 1 ==> bs[1..][j].code != code by {
            forall j | 0 <= j < i - 1 ensures bs[1..][j].code != code {
              assert bs[1..][j] == bs[j + 1];
            }
          }
        }
      }
      if forall i :: 0 <= i < |bs| ==> bs[i].code != code {
        assert forall i :: 0 <= i < |bs| - 1 ==> bs[1..][i].code != code by {
          forall i | 0 <= i < |bs| - 1 ensures bs[1..][i].code != code {
            assert bs[1..][i] == bs[i + 1];
          }
        }
      }
    }
  }

  predicate ChecksNotFound(c: Call) {
    c == OpsGetAllAgents || c == OpsGetAgent
  }

  predicate ChecksValidation(c: Call) {
    c == ServiceGetAgentResponse || c == ServiceDeleteChatHistory || c == OpsGetAgentResponse
  }

  /** The status checks of call `c`: 200 is the only success, 401 is always
      an authentication failure, 404 is "not found" only where the call
      checks it, 422 is "validation" only where the call checks it, and
      every other code is a generic failure carrying the code. */
  function Classify(c: Call, code: int): (r: Outcome)
    ensures r == Success <==> code == 200
    ensures !r.NameErrorRaised?
    ensures r.Raised? ==> r.status == code
    ensures code == 401 ==> r == Raised(401, AuthenticationFailed, true)
    ensures r.Raised? && r.kind == NotFound <==> code == 404 && ChecksNotFound(c)
    ensures r.Raised? && r.kind == ValidationFailed <==> code == 422 && ChecksValidation(c)
    ensures r.Raised? && r.kind == Generic <==>
              && code != 200 && code != 401
              && !(code == 404 && ChecksNotFound(c))
              && !(code == 422 && ChecksValidation(c))
    ensures r.Raised? ==> (r.withBody <==> !(c == OpsGetAllAgents && code == 404))
  {
    RunChainFirstMatch(Branches(c), code);
    RunChain(Branches(c), code)
  }

  /** As written, the 422 branch of `AgentOperations.get_agent_response`
      evaluates a name that is never imported, so that one input raises
      `NameError`; everything else matches `Classify`. */
  function ClassifyAsWritten(c: Call, code: int): (r: Outcome)
    ensures r.NameErrorRaised? <==> c == OpsGetAgentResponse && code == 422
    ensures r.NameErrorRaised? ==> r.name == "VALIDATION_FAILED_MESSAGE"
    ensures !(c == OpsGetAgentResponse && code == 422) ==> r == Classify(c, code)
  {
    RunChainFirstMatch(Branches(c), code);
    RunChainFirstMatch(BranchesAsWritten(c), code);
    RunChain(BranchesAsWritten(c), code)
  }

  /** The one input on which the file as written and the corrected model
      disagree. */
  lemma ValidationNameError()
    ensures ClassifyAsWritten(OpsGetAgentResponse, 422) == NameErrorRaised("VALIDATION_FAILED_MESSAGE")
    ensures Classify(OpsGetAgentResponse, 422) == Raised(422, ValidationFailed, true)
  {
  }
}

=== FILE: text.dfy ===
/** The pieces of Python's string library the client scripts lean on:
    `str.strip()`, `str.startswith`, slicing `s[n:]`, `str.splitlines()`
    (and its `bytes` cousin used by `requests.iter_lines`), substring
    `in`, and `int()` on a decimal literal. */
module Text {
  import opened Wrappers

  /** Python's `str.isspace()`: the characters `str.strip()` removes. */
  predicate IsSpace(c: char) {
    || ('\t' <= c <= '\r')
    || ('\U{001C}' <= c <= '\U{001F}')
    || c == ' ' || c == '\U{0085}' || c == '\U{00A0}' || c == '\U{1680}'
    || ('\U{2000}' <= c <= '\U{200A}')
    || c == '\U{2028}' || c == '\U{2029}' || c == '\U{202F}' || c == '\U{205F}'
    || c == '\U{3000}'
  }

  predicate AllSpace(s: string) {
    forall k :: 0 <= k < |s| ==> IsSpace(s[k])
  }

  /** `s.lstrip()`: the longest space-only prefix is dropped. */
  function LStrip(s: string): (r: string)
    ensures |r| <= |s|
    ensures r == [] || !IsSpace(r[0])
  {
    if s != [] && IsSpace(s[0]) then LStrip(s[1..]) else s
  }

  /** `s.rstrip()`: the longest space-only suffix is dropped. */
  function RStrip(s: string): (r: string)
    ensures |r| <= |s|
    ensures r == [] || !IsSpace(r[|r| - 1])
  {
    if s != [] && IsSpace(s[|s| - 1]) then RStrip(s[..|s| - 1]) else s
  }

  /** `s.strip()` with no argument. */
  function Strip(s: string): (r: string)
    ensures r == [] || (!IsSpace(r[0]) && !IsSpace(r[|r| - 1]))
    ensures |r| <= |s|
  {
    var l := LStrip(s);
    RStripIsPrefix(l);
    RStrip(l)
  }

  /** `lstrip` drops exactly a space-only prefix. */
  lemma {:induction false} LStripIsSuffix(s: string)
    ensures LStrip(s) == s[|s| - |LStrip(s)|..]
    ensures forall k :: 0 <= k < |s| - |LStrip(s)| ==> IsSpace(s[k])
    decreases |s|
  {
    if s != [] && IsSpace(s[0]) {
      LStripIsSuffix(s[1..]);
    }
  }

  /** `rstrip` drops exactly a space-only suffix. */
  lemma {:induction false} RStripIsPrefix(s: string)
    ensures RStrip(s) == s[..|RStrip(s)|]
    ensures forall k :: |RStrip(s)| <= k < |s| ==> IsSpace(s[k])
    decreases |s|
  {
    if s != [] && IsSpace(s[|s| - 1]) {
      RStripIsPrefix(s[..|s| - 1]);
    }
  }

  lemma {:induction false} LStripSkipsSpace(a: string, t: string)
    requires AllSpace(a)
    ensures LStrip(a + t) == LStrip(t)
    decreases |a|
  {
    if a != [] {
      assert (a + t)[1..] == a[1..] + t;
      LStripSkipsSpace(a[1..], t);
    } else {
      assert a + t == t;
    }
  }

  lemma {:induction false} RStripSkipsSpace(t: string, b: string)
    requires AllSpace(b)
    ensures RStrip(t + b) == RStrip(t)
    decreases |b|
  {
    if b != [] {
      assert (t + b)[..|t + b| - 1] == t + b[..|b| - 1];
      RStripSkipsSpace(t, b[..|b| - 1]);
    } else {
      assert t + b == t;
    }
  }

  /** `strip` recovers the text between any space-only padding: the
      result is characterised independently of how it is computed. */
  lemma StripPadded(a: string, m: string, b: string)
    requires AllSpace(a) && AllSpace(b)
    requires m == [] || (!IsSpace(m[0]) && !IsSpace(m[|m| - 1]))
    ensures Strip(a + m + b) == m
  {
    assert a + m + b == a + (m + b);
    LStripSkipsSpace(a, m + b);
    if m == [] {
      assert m + b == b + [];
      LStripSkipsSpace(b, []);
      assert LStrip(a + m + b) == [];
    } else {
      assert (m + b)[0] == m[0];
      assert LStrip(a + m + b) == m + b;
      RStripSkipsSpace(m, b);
      assert RStrip(m) == m;
    }
  }

  /** Python's slice `s[n:]` for a non-negative `n`: empty when `n` is past the end. */
  function SliceFrom(s: string, n: nat): string {
    if n <= |s| then s[n..] else []
  }

  /** Which characters a `splitlines()` call treats as line boundaries. */
  datatype LineBreaks =
    | ByteLines   // `bytes.splitlines()`: `\n`, `\r` and `\r\n`
    | TextLines   // `str.splitlines()`: also `\v`, `\f`, `\x1c`-`\x1e`, `\x85`, U+2028, U+2029

  predicate IsBreak(kind: LineBreaks, c: char) {
    || c == '\n' || c == '\r'
    || (kind == TextLines &&
        (c == '\U{000B}' || c == '\U{000C}' || ('\U{001C}' <= c <= '\U{001E}')
         || c == '\U{0085}' || c == '\U{2028}' || c == '\U{2029}'))
  }

  predicate NoBreak(kind: LineBreaks, s: string) {
    forall k :: 0 <= k < |s| ==> !IsBreak(kind, s[k])
  }

  lemma NoBreakAppend(kind: LineBreaks, a: string, b: string)
    requires NoBreak(kind, a) && NoBreak(kind, b)
    ensures NoBreak(kind, a + b)
  {
    forall k | 0 <= k < |a + b|
      ensures !IsBreak(kind, (a + b)[k])
    {
      if k >= |a| {
        assert (a + b)[k] == b[k - |a|];
      }
    }
  }

  /** The characters of `s` that are not line boundaries, in order. */
  function Unbroken(kind: LineBreaks, s: string): string {
    if s == [] then []
    else (if IsBreak(kind, s[0]) then [] else [s[0]]) + Unbroken(kind, s[1..])
  }

  lemma {:induction false} UnbrokenAppend(kind: LineBreaks, a: string, b: string)
    ensures Unbroken(kind, a + b) == Unbroken(kind, a) + Unbroken(kind, b)
    decreases |a|
  {
    if a != [] {
      assert (a + b)[1..] == a[1..] + b;
      UnbrokenAppend(kind, a[1..], b);
    } else {
      assert a + b == b;
    }
  }

  lemma {:induction false} UnbrokenOfNoBreak(kind: LineBreaks, s: string)
    requires NoBreak(kind, s)
    ensures Unbroken(kind, s) == s
    decreases |s|
  {
    if s != [] {
      UnbrokenOfNoBreak(kind, s[1..]);
    }
  }

  lemma {:induction false} UnbrokenOfBreaks(kind: LineBreaks, s: string)
    requires forall k :: 0 <= k < |s| ==> IsBreak(kind, s[k])
    ensures Unbroken(kind, s) == []
    decreases |s|
  {
    if s != [] {
      UnbrokenOfBreaks(kind, s[1..]);
    }
  }

  function Concat(lines: seq<string>): string {
    if lines == [] then [] else lines[0] + Concat(lines[1..])
  }

  /** Index of the first line boundary in `s`, or `|s|` when there is none. */
  function FirstBreak(kind: LineBreaks, s: string): (i: nat)
    ensures i <= |s|
    ensures NoBreak(kind, s[..i])
    ensures i < |s| ==> IsBreak(kind, s[i])
  {
    if s == [] || IsBreak(kind, s[0]) then 0
    else
      var i := 1 + FirstBreak(kind, s[1..]);
      assert s[..i] == [s[0]] + s[1..][..i - 1];
      i
  }

  /** Python's `splitlines()` without `keepends`: the boundaries are
      removed, `\r\n` counts as one, and a trailing boundary does not
      open an empty last line. */
  function SplitLines(kind: LineBreaks, s: string): (r: seq<string>)
    ensures forall k :: 0 <= k < |r| ==> NoBreak(kind, r[k])
    ensures Concat(r) == Unbroken(kind, s)
    ensures r == [] <==> s == []
    decreases |s|
  {
    if s == [] then []
    else
      var i := FirstBreak(kind, s);
      if i == |s| then
        UnbrokenOfNoBreak(kind, s);
        assert Concat([s]) == s + Concat([]);
        [s]
      else
        var next := if s[i] == '\r' && i + 1 < |s| && s[i + 1] == '\n' then i + 2 else i + 1;
        var rest := SplitLines(kind, s[next..]);
        SplitLinesStep(kind, s, i, next, rest);
        [s[..i]] + rest
  }

  /** Cutting off the first line and its boundary keeps the characters that
      are not boundaries. */
  lemma SplitLinesStep(kind: LineBreaks, s: string, i: nat, next: nat, rest: seq<string>)
    requires i < next <= |s| && NoBreak(kind, s[..i])
    requires forall k :: i <= k < next ==> IsBreak(kind, s[k])
    requires Concat(rest) == Unbroken(kind, s[next..])
    ensures Concat([s[..i]] + rest) == Unbroken(kind, s)
  {
    var a, m, b := s[..i], s[i..next], s[next..];
    assert s == a + m + b;
    UnbrokenOfNoBreak(kind, a);
    assert forall k :: 0 <= k < |m| ==> m[k] == s[i + k];
    UnbrokenOfBreaks(kind, m);
    UnbrokenAppend(kind, a + m, b);
    UnbrokenAppend(kind, a, m);
    assert ([a] + rest)[1..] == rest;
    assert Concat([a] + rest) == a + Concat(rest);
  }

  /** The first boundary of `a + rest` is at `|a|` when `a` has none and
      `rest` starts with one. */
  lemma {:induction false} FirstBreakAfter(kind: LineBreaks, a: string, rest: string)
    requires NoBreak(kind, a) && rest != [] && IsBreak(kind, rest[0])
    ensures FirstBreak(kind, a + rest) == |a|
    decreases |a|
  {
    if a != [] {
      var s := a + rest;
      assert s[0] == a[0] && !IsBreak(kind, a[0]);
      assert s[1..] == a[1..] + rest;
      assert NoBreak(kind, a[1..]) by {
        assert forall k :: 0 <= k < |a| - 1 ==> a[1..][k] == a[k + 1];
      }
      FirstBreakAfter(kind, a[1..], rest);
    } else {
      assert a + rest == rest;
    }
  }

  /** A line ended by any single boundary comes off the front of the text
      on its own (a `\r` directly followed by `\n` is the `\r\n` case). */
  lemma SplitLinesCons(kind: LineBreaks, a: string, c: char, b: string)
    requires NoBreak(kind, a) && IsBreak(kind, c)
    requires !(c == '\r' && b != [] && b[0] == '\n')
    ensures SplitLines(kind, a + [c] + b) == [a] + SplitLines(kind, b)
  {
    var s := a + [c] + b;
    assert s == a + ([c] + b);
    FirstBreakAfter(kind, a, [c] + b);
    assert s[|a|] == c;
    assert s[..|a|] == a;
    assert s[|a| + 1..] == b;
  }

  /** A line ended by `\r\n` comes off the front of the text on its own:
      the pair is one boundary, not two. */
  lemma SplitLinesCrLf(kind: LineBreaks, a: string, b: string)
    requires NoBreak(kind, a)
    ensures SplitLines(kind, a + "\r\n" + b) == [a] + SplitLines(kind, b)
  {
    var s := a + "\r\n" + b;
    assert s == a + ("\r\n" + b);
    FirstBreakAfter(kind, a, "\r\n" + b);
    assert s[|a|] == '\r' && s[|a| + 1] == '\n';
    assert s[..|a|] == a;
    assert s[|a| + 2..] == b;
  }

  /** A non-empty text without boundaries is a single line. */
  lemma SplitLinesOfOneLine(kind: LineBreaks, s: string)
    requires s != [] && NoBreak(kind, s)
    ensures SplitLines(kind, s) == [s]
  {
  }

  /** Python's `needle in hay` on two strings: a substring test. */
  predicate Contains(hay: string, needle: string)
    decreases |hay|
  {
    needle <= hay || (hay != [] && Contains(hay[1..], needle))
  }

  /** `needle` occurs in `hay` starting at offset `i`. */
  predicate OccursAt(hay: string, needle: string, i: int) {
    0 <= i && i + |needle| <= |hay| && hay[i..i + |needle|] == needle
  }

  /** `needle in hay` holds exactly when `needle` occurs at some offset. */
  lemma {:induction false} ContainsOccurs(hay: string, needle: string)
    ensures Contains(hay, needle) <==> exists i :: OccursAt(hay, needle, i)
    decreases |hay|
  {
    if hay != [] {
      ContainsOccurs(hay[1..], needle);
      if Contains(hay[1..], needle) {
        var i :| OccursAt(hay[1..], needle, i);
        assert hay[i + 1..i + 1 + |needle|] == hay[1..][i..i + |needle|];
        assert OccursAt(hay, needle, i + 1);
      }
      if needle <= hay {
        assert OccursAt(hay, needle, 0);
      }
      if exists i :: OccursAt(hay, needle, i) {
        var i :| OccursAt(hay, needle, i);
        if i > 0 {
          assert hay[1..][i - 1..i - 1 + |needle|] == hay[i..i + |needle|];
          assert OccursAt(hay[1..], needle, i - 1);
        } else {
          assert needle <= hay;
        }
      }
    } else if needle == [] {
      assert OccursAt(hay, needle, 0);
    }
  }

  predicate IsDigit(c: char) {
    '0' <= c <= '9'
  }

  function DigitChar(d: nat): (c: char)
    requires d < 10
    ensures IsDigit(c)
  {
    ['0', '1', '2', '3', '4', '5', '6', '7', '8', '9'][d]
  }

  function DigitValue(c: char): (d: nat)
    requires IsDigit(c)
    ensures d < 10 && DigitChar(d) == c
  {
    (c as int - '0' as int) as nat
  }

  /** Digits with single underscores between them, as `int()` accepts in base 10. */
  predicate IsDigitGroup(s: string)
    decreases |s|
  {
    && s != [] && IsDigit(s[0])
    && (|s| == 1 || IsDigitGroup(s[1..]) || (s[1] == '_' && IsDigitGroup(s[2..])))
  }

  /** A digit group starts and ends with a digit and holds only digits and
      underscores. */
  lemma {:induction false} DigitGroupShape(s: string)
    ensures IsDigitGroup(s) ==> IsDigit(s[0]) && IsDigit(s[|s| - 1])
    ensures IsDigitGroup(s) ==> forall k :: 0 <= k < |s| ==> IsDigit(s[k]) || s[k] == '_'
    decreases |s|
  {
    if IsDigitGroup(s) && |s| > 1 {
      if IsDigitGroup(s[1..]) {
        DigitGroupShape(s[1..]);
        assert forall k :: 1 <= k < |s| ==> s[k] == s[1..][k - 1];
      } else {
        assert s[1] == '_' && IsDigitGroup(s[2..]);
        DigitGroupShape(s[2..]);
        assert forall k :: 2 <= k < |s| ==> s[k] == s[2..][k - 2];
      }
    }
  }

  /** The number a run of digits denotes; underscores are ignored. */
  function DigitsValue(s: string): nat
  {
    if s == [] then 0
    else if IsDigit(s[|s| - 1]) then 10 * DigitsValue(s[..|s| - 1]) + DigitValue(s[|s| - 1])
    else DigitsValue(s[..|s| - 1])
  }

  /** `int(s)` for an already stripped `s`: an optional sign, then a digit group.
      `None` stands for the `ValueError` Python raises. */
  function ParseInt(s: string): (r: Option<int>)
    ensures s == [] ==> r == None
    ensures r.Some? ==> IsDigit(s[|s| - 1])
    ensures r.Some? ==> forall k :: 0 < k < |s| ==> IsDigit(s[k]) || s[k] == '_'
    ensures r.Some? ==> (r.value < 0 ==> s[0] == '-')
    ensures r.Some? && s[0] == '-' ==> r.value <= 0
    ensures r.Some? <==> IsDigitGroup(s) || (s != [] && (s[0] == '+' || s[0] == '-') && IsDigitGroup(s[1..]))
  {
    DigitGroupShape(s);
    DigitGroupShape(SliceFrom(s, 1));
    if s != [] && (s[0] == '+' || s[0] == '-') then
      if IsDigitGroup(s[1..]) then
        var magnitude: int := DigitsValue(s[1..]);
        Some(if s[0] == '-' then -magnitude else magnitude)
      else None
    else if IsDigitGroup(s) then Some(DigitsValue(s))
    else None
  }

  /** A leading zero does not change the number a run of digits denotes. */
  lemma {:induction false} DigitsValueLeadingZero(s: string)
    ensures DigitsValue("0" + s) == DigitsValue(s)
    decreases |s|
  {
    if s == [] {
      assert ("0" + s)[..0] == [];
    } else {
      var t := "0" + s;
      assert t[..|t| - 1] == "0" + s[..|s| - 1];
      assert t[|t| - 1] == s[|s| - 1];
      DigitsValueLeadingZero(s[..|s| - 1]);
    }
  }

  /** An underscore does not change the number a run of digits denotes. */
  lemma {:induction false} DigitsValueUnderscore(a: string, b: string)
    ensures DigitsValue(a + "_" + b) == DigitsValue(a + b)
    decreases |b|
  {
    if b == [] {
      assert (a + "_" + b)[..|a|] == a;
      assert a + b == a;
    } else {
      var t := a + "_" + b;
      var u := a + b;
      var n := |b| - 1;
      assert t[..|t| - 1] == a + "_" + b[..n];
      assert u[..|u| - 1] == a + b[..n];
      assert t[|t| - 1] == b[n] == u[|u| - 1];
      DigitsValueUnderscore(a, b[..n]);
    }
  }

  /** Two digit groups joined directly, or by one underscore, form a digit
      group. */
  lemma {:induction false} DigitGroupJoin(a: string, b: string)
    requires IsDigitGroup(a) && IsDigitGroup(b)
    ensures IsDigitGroup(a + b)
    ensures IsDigitGroup(a + "_" + b)
    decreases |a|
  {
    var s := a + b;
    var t := a + "_" + b;
    if |a| == 1 {
      assert s[1..] == b;
      assert t[1] == '_' && t[2..] == b;
    } else if IsDigitGroup(a[1..]) {
      DigitGroupJoin(a[1..], b);
      assert s[1..] == a[1..] + b;
      assert t[1..] == a[1..] + "_" + b;
    } else {
      DigitGroupJoin(a[2..], b);
      assert s[2..] == a[2..] + b;
      assert t[2..] == a[2..] + "_" + b;
    }
  }

  /** `int()` reads an unsigned digit group as the number it denotes, and
      reads it with a `+` sign as the same number and with a `-` sign as its
      negation. */
  lemma ParseIntSigned(a: string)
    requires IsDigitGroup(a)
    ensures ParseInt(a) == Some(DigitsValue(a) as int)
    ensures ParseInt("+" + a) == ParseInt(a)
    ensures ParseInt("-" + a) == Some(-(DigitsValue(a) as int))
  {
    assert ("+" + a)[0] == '+' && ("+" + a)[1..] == a;
    assert ("-" + a)[0] == '-' && ("-" + a)[1..] == a;
  }

  /** A leading zero does not change what `int()` reads. */
  lemma ParseIntLeadingZero(a: string)
    requires IsDigitGroup(a)
    ensures ParseInt("0" + a) == ParseInt(a)
  {
    var t := "0" + a;
    assert t[1..] == a;
    assert IsDigitGroup(t);
    DigitsValueLeadingZero(a);
  }

  /** An underscore between two digit groups does not change what `int()`
      reads. */
  lemma ParseIntUnderscore(a: string, b: string)
    requires IsDigitGroup(a) && IsDigitGroup(b)
    ensures ParseInt(a + "_" + b) == ParseInt(a + b)
  {
    DigitGroupJoin(a, b);
    DigitsValueUnderscore(a, b);
    assert IsDigit((a + b)[0]) && IsDigit((a + "_" + b)[0]);
  }

  /** The decimal spelling of a natural number, most significant digit first. */
  function Digits(n: nat): string
  {
    if n < 10 then [DigitChar(n)] else Digits(n / 10) + [DigitChar(n % 10)]
  }

  /** `str(n)` for an integer `n`. */
  function DecimalString(n: int): string {
    if n < 0 then "-" + Digits(-n) else Digits(n)
  }

  lemma {:induction false} DigitGroupSnoc(a: string, c: char)
    requires IsDigitGroup(a) && IsDigit(c)
    ensures IsDigitGroup(a + [c])
    decreases |a|
  {
    var s := a + [c];
    if |a| == 1 {
      assert s[1..] == [c];
    } else if IsDigitGroup(a[1..]) {
      DigitGroupSnoc(a[1..], c);
      assert s[1..] == a[1..] + [c];
    } else {
      DigitGroupSnoc(a[2..], c);
      assert s[2..] == a[2..] + [c];
    }
  }

  lemma {:induction false} DigitsRoundTrip(n: nat)
    ensures IsDigitGroup(Digits(n))
    ensures DigitsValue(Digits(n)) == n
    ensures forall k :: 0 <= k < |Digits(n)| ==> IsDigit(Digits(n)[k])
  {
    if n >= 10 {
      DigitsRoundTrip(n / 10);
      var s := Digits(n);
      assert s[..|s| - 1] == Digits(n / 10);
      DigitGroupSnoc(Digits(n / 10), DigitChar(n % 10));
    }
  }

  /** `int(str(n)) == n`: the parser reads back every integer's spelling. */
  lemma ParseIntRoundTrip(n: int)
    ensures ParseInt(DecimalString(n)) == Some(n)
  {
    var s := DecimalString(n);
    if n < 0 {
      DigitsRoundTrip(-n);
      assert s[0] == '-' && s[1..] == Digits(-n);
    } else {
      DigitsRoundTrip(n);
      assert IsDigit(s[0]);
    }
  }

  /** An integer's spelling has no surrounding space for `strip` to remove. */
  lemma StripDecimal(n: int)
    ensures Strip(DecimalString(n)) == DecimalString(n)
  {
    var s := DecimalString(n);
    if n < 0 {
      DigitsRoundTrip(-n);
      assert forall k :: 1 <= k < |s| ==> s[k] == Digits(-n)[k - 1];
    } else {
      DigitsRoundTrip(n);
    }
    assert !IsSpace(s[0]) && !IsSpace(s[|s| - 1]);
    StripPadded([], s, []);
    assert [] + s + [] == s;
  }
}

=== FILE: uploader.dfy ===
/** The extension filter and the per-file loop of the document uploader:
    every path is checked against the allowed extensions, and the allowed
    ones are opened and posted one by one, a failure only skipping its own
    file. */
module Uploader {

  // ------------------------------------------------------------ extension

  /** `p.split('.')[-1]`: the text after the last `.` of the whole path, or
      the whole path when it has no `.`. */
  function LastSegment(p: string): (r: string)
    ensures '.' !in r
    ensures |r| <= |p|
    decreases |p|
  {
    if p == [] then []
    else if p[|p| - 1] == '.' then []
    else LastSegment(p[..|p| - 1]) + [p[|p| - 1]]
  }

  /** `r` ends `p`, and is all of `p` or follows a `.` in it. */
  predicate TailAfterDot(p: string, r: string) {
    && |r| <= |p| && p[|p| - |r|..] == r
    && (|r| < |p| ==> p[|p| - |r| - 1] == '.')
  }

  /** The last segment ends the path and is all of it or follows a `.`. */
  lemma {:induction false} LastSegmentIsTail(p: string)
    ensures TailAfterDot(p, LastSegment(p))
    decreases |p|
  {
    if p != [] && p[|p| - 1] != '.' {
      var q := p[..|p| - 1];
      LastSegmentIsTail(q);
      var r := LastSegment(p);
      var rq := LastSegment(q);
      assert r == rq + [p[|p| - 1]];
      assert p[|p| - |r|..] == q[|q| - |rq|..] + [p[|p| - 1]];
      if |r| < |p| {
        assert p[|p| - |r| - 1] == q[|q| - |rq| - 1];
      }
    }
  }

  /** `s.split(c)`: the pieces between the occurrences of `c`. */
  function SplitOn(s: string, c: char): (r: seq<string>)
    ensures |r| >= 1
    ensures forall i :: 0 <= i < |r| ==> c !in r[i]
    decreases |s|
  {
    if s == [] then [[]]
    else
      var rest := SplitOn(s[1..], c);
      if s[0] == c then [[]] + rest
      else [[s[0]] + rest[0]] + rest[1..]
  }

  /** `c.join(pieces)`. */
  function Join(pieces: seq<string>, c: char): string
    requires |pieces| >= 1
    decreases |pieces|
  {
    if |pieces| == 1 then pieces[0] else pieces[0] + [c] + Join(pieces[1..], c)
  }

  /** Splitting and joining again gives the string back. */
  lemma {:induction false} SplitJoin(s: string, c: char)
    ensures Join(SplitOn(s, c), c) == s
    decreases |s|
  {
    if s != [] {
      SplitJoin(s[1..], c);
      var rest := SplitOn(s[1..], c);
      if s[0] == c {
        assert SplitOn(s, c)[1..] == rest;
      } else {
        var r := SplitOn(s, c);
        assert r[1..] == rest[1..];
        if |rest| == 1 {
          assert Join(r, c) == [s[0]] + rest[0];
        } else {
          assert Join(r, c) == [s[0]] + (rest[0] + [c] + Join(rest[1..], c));
        }
      }
    }
  }

  /** Joining ends with the last piece, after a separator when there are
      several. */
  lemma {:induction false} JoinLast(pieces: seq<string>, c: char)
    requires |pieces| >= 2
    ensures Join(pieces, c) == Join(pieces[..|pieces| - 1], c) + [c] + pieces[|pieces| - 1]
    decreases |pieces|
  {
    if |pieces| > 2 {
      JoinLast(pieces[1..], c);
      assert pieces[1..][..|pieces| - 2] == pieces[..|pieces| - 1][1..];
    }
  }

  /** The last segment is the only suffix without `.` that is the whole
      path or follows a `.`. */
  lemma {:induction false} LastSegmentUnique(p: string, r: string)
    requires '.' !in r
    requires |r| <= |p| && p[|p| - |r|..] == r
    requires |r| < |p| ==> p[|p| - |r| - 1] == '.'
    ensures r == LastSegment(p)
    decreases |p|
  {
    if p != [] && p[|p| - 1] != '.' {
      var q := p[..|p| - 1];
      assert r != [];
      var r' := r[..|r| - 1];
      assert q[|q| - |r'|..] == r' by {
        assert p[|p| - |r|..][..|r| - 1] == r';
      }
      if |r'| < |q| {
        assert q[|q| - |r'| - 1] == p[|p| - |r| - 1];
      }
      assert forall x :: x in r' ==> x in r;
      LastSegmentUnique(q, r');
      assert r == r' + [p[|p| - 1]];
    } else if p != [] {
      assert r == [];
    }
  }

  /** `file.split('.')[-1]` is the last segment of the whole path. */
  lemma SplitLastIsLastSegment(p: string)
    ensures SplitOn(p, '.')[|SplitOn(p, '.')| - 1] == LastSegment(p)
  {
    var ps := SplitOn(p, '.');
    var last := ps[|ps| - 1];
    SplitJoin(p, '.');
    if |ps| >= 2 {
      JoinLast(ps, '.');
      var front := Join(ps[..|ps| - 1], '.');
      assert p == front + ['.'] + last;
      assert p[|p| - |last|..] == last;
      assert p[|p| - |last| - 1] == '.';
    } else {
      assert p == last;
      assert p[|p| - |last|..] == last;
    }
    LastSegmentUnique(p, last);
  }

  /** A dot anywhere in the path decides: the segment after the last dot is
      taken even when the dot belongs to a directory name. */
  lemma LastSegmentAfterDot(a: string, b: string)
    requires '.' !in b
    ensures LastSegment(a + "." + b) == b
  {
    var p := a + "." + b;
    assert p[|p| - |b|..] == b;
    assert p[|p| - |b| - 1] == '.';
    LastSegmentUnique(p, b);
  }

  /** A path without any dot is its own extension. */
  lemma LastSegmentNoDot(p: string)
    requires '.' !in p
    ensures LastSegment(p) == p
  {
    assert p[|p| - |p|..] == p;
    LastSegmentUnique(p, p);
  }

  // --------------------------------------------------------------- filter

  /** `file.split('.')[-1] in allowed_file_types`, with the configured list:
      exact string equality, so `PDF` does not match `pdf`. */
  predicate IsAllowed(p: string, allowed: seq<string>) {
    LastSegment(p) in allowed
  }

  /** The paths the loop attempts, in list order. */
  function AllowedFiles(files: seq<string>, allowed: seq<string>): (r: seq<string>)
    ensures |r| <= |files|
    decreases |files|
  {
    if files == [] then []
    else
      var n := |files| - 1;
      AllowedFiles(files[..n], allowed) + (if IsAllowed(files[n], allowed) then [files[n]] else [])
  }

  /** The attempted paths are exactly the listed paths whose extension is
      allowed. */
  lemma {:induction false} AllowedFilesMembers(files: seq<string>, allowed: seq<string>)
    ensures forall x :: x in AllowedFiles(files, allowed) <==> x in files && IsAllowed(x, allowed)
    decreases |files|
  {
    if files != [] {
      var n := |files| - 1;
      AllowedFilesMembers(files[..n], allowed);
      assert files == files[..n] + [files[n]];
    }
  }

  /** The filter keeps paths in list order: it distributes over
      concatenation. */
  lemma {:induction false} AllowedFilesAppend(a: seq<string>, b: seq<string>, allowed: seq<string>)
    ensures AllowedFiles(a + b, allowed) == AllowedFiles(a, allowed) + AllowedFiles(b, allowed)
    decreases |b|
  {
    if b == [] {
      assert a + b == a;
    } else {
      var n := |b| - 1;
      var ab := a + b;
      assert ab[..|ab| - 1] == a + b[..n];
      assert ab[|ab| - 1] == b[n];
      AllowedFilesAppend(a, b[..n], allowed);
    }
  }

  // ----------------------------------------------------------------- loop

  /** What opening and posting one file came to. The upload itself is not
      modelled; the caller supplies it. */
  datatype Attempt =
    | Posted(status: int)   // the POST returned; only 200 prints a success line
    | NotFound              // `FileNotFoundError` while opening
    | OpenFailed            // any other error while opening
    | PostFailed            // an exception from the POST

  /** What the loop did with one path. */
  datatype Report = Skipped | Attempted(outcome: Attempt)

  /** `upload_files`: one report per path, in order; a path is skipped
      exactly when its extension is not allowed, every other path is
      attempted, and whatever an attempt comes to, the loop goes on with the
      next path. `attempted` lists the paths tried, in order. */
  method UploadFiles(files: seq<string>, allowed: seq<string>, attempt: string -> Attempt)
    returns (reports: seq<Report>, attempted: seq<string>)
    ensures |reports| == |files|
    ensures forall i :: 0 <= i < |files| ==> (reports[i].Skipped? <==> !IsAllowed(files[i], allowed))
    ensures forall i :: 0 <= i < |files| && IsAllowed(files[i], allowed) ==> reports[i] == Attempted(attempt(files[i]))
    ensures attempted == AllowedFiles(files, allowed)
  {
    reports := [];
    attempted := [];
    var i := 0;
    while i < |files|
      invariant 0 <= i <= |files|
      invariant |reports| == i
      invariant forall j :: 0 <= j < i ==> (reports[j].Skipped? <==> !IsAllowed(files[j], allowed))
      invariant forall j :: 0 <= j < i && IsAllowed(files[j], allowed) ==> reports[j] == Attempted(attempt(files[j]))
      invariant attempted == AllowedFiles(files[..i], allowed)
    {
      var file := files[i];
      assert files[..i + 1][..i] == files[..i];
      if !IsAllowed(file, allowed) {
        reports := reports + [Skipped];
      } else {
        var outcome := attempt(file);
        reports := reports + [Attempted(outcome)];
        attempted := attempted + [file];
      }
      i := i + 1;
    }
    assert files[..i] == files;
  }
}

=== FILE: wrappers.dfy ===
/** Option and Result, the two wrappers the rest of the
    model uses for Python's `None` results and raised exceptions. */
module Wrappers {

  /** A value that may be absent: Python's `x or None`. */
  datatype Option<+T> = None | Some(value: T)

  /** The outcome of a call that either returns a value or raises an error. */
  datatype Result<+T, +E> = Ok(value: T) | Err(error: E)

  /** Element `k` is the first on which `f` fails. */
  predicate FirstFailing<A, B, E>(xs: seq<A>, f: A -> Result<B, E>, k: int) {
    && 0 <= k < |xs|
    && f(xs[k]).Err?
    && forall j :: 0 <= j < k ==> f(xs[j]).Ok?
  }

  /** A Python loop that appends `f(x)` for every `x` in order and lets the
      first exception escape: one result per element, or the first error. */
  function MapResults<A, B, E>(xs: seq<A>, f: A -> Result<B, E>): (r: Result<seq<B>, E>)
    ensures r.Ok? <==> forall k :: 0 <= k < |xs| ==> f(xs[k]).Ok?
    ensures r.Ok? ==> |r.value| == |xs|
    ensures r.Ok? ==> forall k :: 0 <= k < |xs| ==> Ok(r.value[k]) == f(xs[k])
    ensures r.Err? ==> exists k :: FirstFailing(xs, f, k) && Err(r.error) == f(xs[k])
    decreases |xs|
  {
    if xs == [] then Ok([])
    else
      var n := |xs| - 1;
      assert forall j :: 0 <= j < n ==> xs[..n][j] == xs[j];
      match MapResults(xs[..n], f)
      case Err(e) =>
        assert exists k :: FirstFailing(xs[..n], f, k) && Err(e) == f(xs[..n][k]);
        Err(e)
      case Ok(prev) =>
        match f(xs[n])
        case Err(e) =>
          assert FirstFailing(xs, f, n);
          Err(e)
        case Ok(y) => Ok(prev + [y])
  }
}
